=== FILE: README.md ===
# Aura Global News Mood Map — a Dafny model of the ingestion core

Aura collects technology headlines for six countries from a news search
service, scores each headline's sentiment with a transformer model, files it
under one of eight topics with a zero-shot classifier, labels its risk level
from the score, and stores it in the SQLite table `haberler`. A unique `url`
keeps a headline from being stored twice. Around that pipeline sit two
configuration layers, two TTL caches, a retry wrapper, record validators, a
z-score spike detector and a composite 0–100 risk score for the dashboard.
The code base holds three generations of the backend:

- `main_old.py`: the defensive first generation. It swallows every failure.
- `main.py`: the strict second generation. It raises on a bad record.
- `main_refactored.py` with `src/`: the layered third generation, with an
  injected analyzer, a repository class and dataclass settings.

This project models all three, one Dafny module per source file:

| module | file | source |
|---|---|---|
| `Common` | common.dfy | Python dict slots (missing / None / value), truthiness, environment lookup, article records |
| `Text` | text.dfy | string helpers the source uses: `strip`, ASCII `lower`, `in`, `replace`, `split(...)[0]`, slicing, SQLite text order |
| `RealSums` | real_sums.dfy | sums, minimum, maximum, mean and sample variance of real sequences |
| `AppConfig` | app_config.dfy | config.py |
| `Settings` | settings.dfy | src/config/settings.py |
| `NewsRepository` | repository.dfy | src/database/repository.py, and the `haberler` table shared by all generations |
| `Backend` | backend.dfy | main.py |
| `LegacyBackend` | legacy_backend.dfy | main_old.py |
| `AnalyzerService` | analyzer_service.dfy | src/services/analyzer.py |
| `Utilities` | utilities.dfy | utils.py |
| `SharedUtils` | shared_utils.dfy | `src/utils/__init__.py` |
| `RefactoredPipeline` | refactored_pipeline.dfy | main_refactored.py |

The table is a class, `NewsRepository.NewsTable`. Its fields are the rows,
whether the table has been created, and the next AUTOINCREMENT id. Each
generation's store class holds that table and updates it with methods whose
`modifies` clause names it. A batch insert is proved against `RunBatch`, a
function that folds one INSERT per record over the table. The lemmas about
`RunBatch` state the deduplication guarantee: which records get in, that
each is counted once, and that stored rows never change. The caches are
classes with a `map` field. The article loops, the batch loops and the
retry loop are methods with loop invariants. The pure scoring, labelling
and validation logic is functions and lemmas.

The models, the service's answers, the clock and the square root are
parameters:

- `string -> Option<SentimentOutput>` and `string -> Option<seq<string>>`
  stand for the two models. `None` is a call that raises.
- `now` and `clock(i)` stand for clock readings.
- `sqrt: real -> real` stands for the square root.

Two behaviours of the code are easy to miss. The model keeps both:

- In main.py, `process_articles` reads `article.get('source', {}).get('name', ...)`
  at main.py:188. That is before the per-article `try` at main.py:194. So an
  article whose `source` is None raises out of the loop, and one such
  article aborts the whole batch (`Backend.ProcessAbortsIff`).
- In main_old.py, the cycle adds the inserted count to `total_processed`
  (main_old.py:419), but it counts critical labels over every processed
  record of the country, inserted or not (main_old.py:422-424;
  `LegacyBackend.CycleAccounting`).

## Model

| member | source | states |
|---|---|---|
| AppConfig.LoadConfig | config.py:16-31 | a set variable's value is read as it is; with a variable unset, the API keys default to "", the database url to sqlite:///haber_analizi.db, the environment to development |
| AppConfig.ValidateKeys | config.py:82-96 | false exactly when the Google or the news key is empty; a placeholder value counts as present |
| AppConfig.GetGoogleApiKey | config.py:98-108 | "" exactly for an empty key or the placeholder, otherwise the key itself |
| AppConfig.GetNewsApiKey | config.py:110-120 | "" exactly for an empty key or the placeholder, otherwise the key itself |
| AppConfig.PlaceholdersPassValidation | config.py:82-120 | placeholder keys pass validate_keys while both accessors withhold them |
| AppConfig.GetConfig | config.py:141-152 | production and testing select their classes; every other name, "default" included, selects DevelopmentConfig |
| AppConfig.SelectedConfig | config.py:123-156 | no ENVIRONMENT gives a debug development config; testing has TESTING set, DEBUG off and the in-memory database; production has neither flag |
| Settings.DbPathOfUrl | src/config/settings.py:24-27 | db_path of "sqlite:///" + p is p, and a url without the scheme is its own path |
| Settings.DefaultDbPath | src/config/settings.py:21-27 | the default url gives the file haber_analizi.db |
| Settings.APIConfig.Validate | src/config/settings.py:39-46 | true exactly when both keys are non-empty |
| Settings.LabelInjective | src/config/settings.py:80-91 | the five risk labels are pairwise distinct |
| Settings.RiskThresholds.Level | src/config/settings.py:80-91 | each label is chosen exactly on its band of the if-chain (score <= critical, critical < score <= warning, and so on) |
| Settings.LevelMonotone | src/config/settings.py:80-91 | for any four boundaries, a higher score never gets a more severe label |
| Settings.DefaultLevels | src/config/settings.py:72-91 | default-table labels of -0.8, -0.5, -0.1, 0.0 and 0.7; each boundary falls in the band it closes |
| Settings.SecurityConfig.constructor | src/config/settings.py:159-174 | debug is set exactly in the development environment |
| Settings.SecurityConfig.IsProduction | src/config/settings.py:176-178 | true exactly in the production environment |
| Settings.NewSecurityConfig | src/config/settings.py:159-178 | the environment comes from ENVIRONMENT (default development); debug and production mode never hold together |
| Settings.Settings.constructor | src/config/settings.py:190-203 | BuiltFrom(env): the database url, both API keys, the secret key, the password and the environment are read from the environment with their defaults; debug is set exactly in development; the default risk boundaries; the six country codes and the eight categories, each listed in order |
| Settings.Settings.ValidateAll | src/config/settings.py:205-207 | true exactly when both API keys are non-empty |
| Settings.SettingsRegistry.constructor | src/config/settings.py:223-224 | the singleton starts empty |
| Settings.SettingsRegistry.GetSettings | src/config/settings.py:227-232 | the first call returns a fresh Settings that satisfies BuiltFrom(env), the same state the constructor promises; later calls return that same object |
| Settings.GetSettingsTwice | src/config/settings.py:227-232 | two calls return the same object even when the environment changed in between |
| NewsRepository.AdmitsByUrl | src/database/repository.py:21-35 | with NOT NULL satisfied, UNIQUE(url) alone decides admission; UNIQUE(baslik, url) never rejects anything more |
| NewsRepository.RunBatch | src/database/repository.py:145-185 | every record is counted once, as inserted or duplicate; the table grows by exactly the inserted count, and the next id with it |
| NewsRepository.RunBatchPreserves | src/database/repository.py:157-175 | a batch never changes a row already stored, and the url-uniqueness and id constraints keep holding |
| NewsRepository.StoredUrlsAfter | src/database/repository.py:157-175 | partway through a batch, a url is stored iff it was stored before or an earlier accepted record of the batch carries it |
| NewsRepository.AcceptedIff | src/database/repository.py:157-175 | a record is inserted iff its NOT NULL columns have values, its url is not stored, and no earlier accepted record of the batch has its url |
| NewsRepository.ThreeRecordBatch | src/database/repository.py:145-185 | three complete records with distinct urls, one already stored: two rows are added |
| NewsRepository.ReinsertSameRecord | src/database/repository.py:145-185 | inserting a new record adds it; inserting it again adds nothing and leaves the table as it was |
| NewsRepository.Bind | src/database/repository.py:159-170 | every column binds its present value as it is, the url included, and None as NULL; missing ulke, tarih, baslik and url bind NULL; missing skor, kategori, kaynak and risk_seviyesi get 0.0, Unknown, NewsAPI and Normal; NOT NULL can hold only when the text columns are present |
| NewsRepository.BindAll | src/database/repository.py:157-170 | one parameter tuple per record, in order |
| NewsRepository.InsertDesc | src/database/repository.py:51-53 | inserting into a newest-first sequence keeps it newest first and adds exactly that row |
| NewsRepository.SortByDateDesc | src/database/repository.py:51-53 | ORDER BY tarih DESC returns a permutation of the rows, newest first |
| NewsRepository.Where | src/database/repository.py:51-52 | exactly the rows that satisfy the filter, each as often as in the table, and no other row |
| NewsRepository.ByCountry | src/database/repository.py:51 | exactly the rows of the country, each as often as in the table, newest first |
| NewsRepository.ByCategory | src/database/repository.py:52 | exactly the rows of the category, each as often as in the table, newest first; a NULL category never matches |
| NewsRepository.TakeLatest | src/database/repository.py:53 | the first k rows of a newest-first order are at least as new as every row after them |
| NewsRepository.Recent | src/database/repository.py:53 | LIMIT n keeps min(n, size) rows, and all rows for a negative n; the result is newest first; no left-out row is newer than a kept one |
| NewsRepository.NewsTable.constructor | src/database/repository.py:21-35 | a new database file has no table and no rows |
| NewsRepository.NewsTable.CreateIfNotExists | src/database/repository.py:132 | creates the table and keeps every row |
| NewsRepository.NewsTable.Insert | src/database/repository.py:159-175 | returns whether the constraints admit the row; if so the row is appended with the next id, otherwise the table is unchanged |
| NewsRepository.NewsTable.Restore | main.py:132-136 | a rollback puts the table back to its state at the start of the transaction |
| NewsRepository.SQLiteNewsRepository.constructor | src/database/repository.py:121-123 | keeps the path and the database it is given |
| NewsRepository.SQLiteNewsRepository.InitDatabase | src/database/repository.py:125-143 | returns True, the table exists afterwards, and the stored rows are kept |
| NewsRepository.SQLiteNewsRepository.AddNews | src/database/repository.py:145-185 | an empty batch returns 0 untouched; a missing table raises; otherwise returns RunBatch's inserted count and leaves RunBatch's table |
| NewsRepository.SQLiteNewsRepository.GetAllNews | src/database/repository.py:187-196 | the rows in table order; a missing table raises, because only DatabaseException is caught |
| NewsRepository.SQLiteNewsRepository.GetNewsByCountry | src/database/repository.py:198-210 | ByCountry of the table's rows when the table exists, [] when it is missing |
| NewsRepository.SQLiteNewsRepository.GetNewsByCategory | src/database/repository.py:212-224 | ByCategory of the table's rows when the table exists, [] when it is missing |
| NewsRepository.SQLiteNewsRepository.GetRecentNews | src/database/repository.py:226-235 | the limit newest rows as in Recent; a missing table raises |
| Backend.RiskLevel | main.py:147-156 | each of the four labels is chosen exactly on its band of the configured thresholds |
| Backend.CalculateRiskLevel | main.py:147-156 | KRİTİK iff score <= -0.7, UYARI iff -0.7 < score <= -0.4, POZİTİF iff score >= 0.5, NORMAL otherwise |
| Backend.RiskLevelMonotone | main.py:147-156 | a higher score never gets a more severe label |
| Backend.RiskLevelTable | tests/test_backend.py:99-110 | the four label values the backend tests expect |
| Backend.RiskTablesDiverge | main.py:147-156 | compares the four-label table with the five-label table: same critical and warning bands; 0.0 is NORMAL here and POZİTİF there |
| Backend.AnalyzeArticle | main.py:158-179 | succeeds iff both models return and a label is ranked; then signed confidence (rounded), top label, and the risk label of the rounded score |
| Backend.SourceName | main.py:188 | raises exactly when the source is None; a missing source gives Unknown |
| Backend.ProcessedFrom | main.py:181-211 | records carry the country code and the risk label of their score; at most one record per article |
| Backend.ErrSticky | main.py:185-188 | once an article has raised, the whole call raises with that error |
| Backend.ProcessAbortsIff | main.py:185-192 | the call raises iff some article's source is None, filtered or not |
| Backend.ProcessedOrigins | main.py:181-211 | output in input order: exactly one record per article that passes the filter and whose analysis succeeds |
| Backend.ProcessArticles | main.py:181-211 | the loop computes ProcessedFrom |
| Backend.StrictBind | main.py:114-123 | KeyError iff one of the five subscripted keys is missing (ulke checked first); otherwise the slot values, with defaults for the rest |
| Backend.StrictParams | main.py:108-123 | one parameter tuple per record when no record lacks a key |
| Backend.ProcessedRecordsInsertable | main.py:197-206 | records built by process_articles never raise KeyError and meet every NOT NULL constraint |
| Backend.Database.constructor | main.py:52-54 | keeps the path and the database it is given |
| Backend.Database.InitDb | main.py:65-99 | creates the table and keeps every row |
| Backend.Database.InsertNews | main.py:101-136 | with every key present and the table existing, RunBatch's count and table; a missing key or table raises with the table unchanged (rollback); the error names the first record lacking a key |
| Backend.InsertSameRecordTwice | tests/test_backend.py:71-89 | inserting the same record twice returns 1, then 0 |
| LegacyBackend.LenientBind | main_old.py:145-154 | every column binds its present value as it is, the url included, and None as NULL; a missing column gets its default (Unknown, "", "", 0.0, "", Unknown, NewsAPI, Normal); NOT NULL fails only for an explicit None |
| LegacyBackend.LenientParams | main_old.py:139-154 | one parameter tuple per record, in order |
| LegacyBackend.LegacyInsert | main_old.py:128-180 | an empty batch or a missing table gives 0 and no change; otherwise rows are only appended, by the returned count, and the constraints hold |
| LegacyBackend.MissingUrlsCollide | main_old.py:145-158 | two records without a url are both stored under "", so only the first is kept |
| LegacyBackend.LegacyDatabase.constructor | main_old.py:63-65 | keeps the path and the database it is given |
| LegacyBackend.LegacyDatabase.InitDb | main_old.py:82-126 | creates the table and keeps every row |
| LegacyBackend.LegacyDatabase.InsertNews | main_old.py:128-180 | never raises; its table and count are LegacyInsert's |
| LegacyBackend.AnalyzeArticle | main_old.py:202-241 | an empty or non-text title gives (0.0, Unknown, HATA); when the sentiment model answers on the first 512 characters, the score is the rounded confidence, negated unless the label is POSITIVE; a missing or failing sentiment model gives 0.0 and NORMAL; the risk label is the chain applied to the score; a missing or failing classifier gives Unknown, otherwise the top label |
| LegacyBackend.AnalyzeFallbacksIndependent | main_old.py:211-233 | the score depends only on the sentiment model, the category only on the classifier |
| LegacyBackend.LegacyProcessed | main_old.py:243-281 | never raises; records carry the country code, titles of at most 500, urls of at most 2000 and sources of at most 100 characters, and their score's risk label |
| LegacyBackend.LegacyOrigins | main_old.py:243-281 | output in input order: exactly one record per article that passes the filter and has a source name |
| LegacyBackend.ProcessArticles | main_old.py:243-281 | the loop computes LegacyProcessed |
| LegacyBackend.CriticalLabelIff | main_old.py:422-425 | a risk label contains KRİTİK iff the score is at most -0.7 |
| LegacyBackend.CycleRecords | main_old.py:411-413 | every record of the cycle carries its score's risk label |
| LegacyBackend.ToInputs | main_old.py:416-418 | the dicts handed to insert_news, one per record |
| LegacyBackend.CycleAccounting | main_old.py:406-437 | the table grows by exactly total_processed rows and keeps earlier rows; critical_count counts all processed critical records, whatever the table does |
| LegacyBackend.CriticalMeansScore | main_old.py:422-425 | counting KRİTİK labels equals counting scores at most -0.7 |
| LegacyBackend.CountCriticalRecords | main_old.py:422-425 | the loop counts the records labelled critical |
| LegacyBackend.CycleCriticalCount | main_old.py:406-437 | a cycle's critical count is the number of its processed records scoring at most -0.7 |
| LegacyBackend.ProcessCountry | main_old.py:411-431 | one country: processed records inserted as LegacyInsert does, critical ones counted |
| LegacyBackend.RunCycle | main_old.py:406-437 | the loop over the countries leaves the table and both counters of Cycle |
| LegacyBackend.HasApiKey | main_old.py:292 | true iff the key is non-empty and not the placeholder |
| LegacyBackend.HasApiKeyMatchesConfig | main_old.py:292 | the collector has a key exactly when the config accessor does not withhold it |
| LegacyBackend.FetchNews | main_old.py:294-298 | without a key nothing is requested and [] is returned |
| AnalyzerService.Failure | src/services/analyzer.py:58-80 | no failure iff both capabilities return and the title is text (the debug line slices it) |
| AnalyzerService.AnalyzeNews | src/services/analyzer.py:38-89 | without baslik the dict comes back unchanged; otherwise other keys are kept and either the score, category, risk label and time or the 0.0/Error/HATA/message fallback are set; no error key iff no failure |
| AnalyzerService.AnalyzeBatch | src/services/analyzer.py:91-100 | one result per input in order; the logged count is the number of inputs analysed without error |
| AnalyzerService.CountWithoutError | src/services/analyzer.py:97 | at most one per result; all of them iff no result has an error key, none iff every result has one |
| AnalyzerService.SuccessCount | src/services/analyzer.py:97-98 | counting results without an error key equals counting clean inputs |
| AnalyzerService.CountryNews | src/services/analyzer.py:104 | exactly the records whose ulke is the country, each as often as it occurs in the input |
| AnalyzerService.CountryNewsAppend | src/services/analyzer.py:104 | the filter of a concatenation is the concatenation of the filters, so the records keep their input order |
| AnalyzerService.GetCountrySentiment | src/services/analyzer.py:102-124 | no records gives 0.0, 0, VERİ YOK; raises iff a matching score is None or text; otherwise the count of matching records, the average as the sum of their scores over that count, the minimum and maximum of the scores, the risk label of the average, and min <= average <= max |
| Utilities.CacheLookupIff | utils.py:21-30 | get serves a value iff the key is present and was set fewer than ttl seconds ago, and then serves the stored value |
| Utilities.SetThenGet | utils.py:21-34 | a value set is served by a get fewer than ttl seconds later |
| Utilities.SetOnlyThatKey | utils.py:32-35 | set changes what get returns for its own key only |
| Utilities.GetEvictsOnlyExpired | utils.py:21-30 | after get, its key is still stored iff get served it; other keys keep their entries |
| Utilities.ExpiryIsFinal | utils.py:21-30 | after a miss, no later get hits until the key is set again |
| Utilities.SimpleCache.constructor | utils.py:17-19 | an empty cache with the given ttl |
| Utilities.SimpleCache.Get | utils.py:21-30 | returns CacheLookup and deletes the entry when it has expired |
| Utilities.SimpleCache.Set | utils.py:32-35 | stores (now, value) under the key and nothing else |
| Utilities.SimpleCache.Clear | utils.py:37-39 | empties the cache |
| Utilities.CacheScenario | tests/test_backend.py:135-147 | set then get returns test_value; an unknown key returns None |
| Utilities.DetectSpikes | utils.py:45-65 | the frame comes back unchanged iff it is empty or lacks the column; a text column raises; otherwise one flag per row, and one score per row when present; a single row is not flagged and scores NaN |
| Utilities.SpikeFlags | utils.py:53-63 | zero variance: all False and no score column; otherwise row i is flagged iff its squared deviation exceeds threshold squared times the variance, and its score is the squared z |
| Utilities.SingleRowNoSpike | utils.py:52-63 | one numeric row: pandas' deviation is NaN, so the row is not flagged and its score is NaN |
| Utilities.EqualValuesNoAnomaly | utils.py:54-59 | a column of equal values has no anomaly |
| Utilities.ExceedsMeansAbove | utils.py:61-62 | the squared test agrees with abs(dev) / std > threshold for every positive std |
| Utilities.TestSeriesSpike | tests/test_backend.py:149-165 | the test series flags exactly the fourth score (-0.95) at threshold 2.0 |
| Utilities.SentimentComponent | utils.py:146 | lies in [0, 40] for scores in [-1, 1], with 0 at -1 and 40 at 1 |
| Utilities.SentimentMonotone | utils.py:146 | a higher score never lowers the sentiment component |
| Utilities.FrequencyBounds | utils.py:149-150 | every row's frequency component lies in (0, 30] |
| Utilities.KeywordScore | utils.py:156-157 | 10 iff the lowercased title contains a critical keyword, 0 otherwise (a missing title never matches) |
| Utilities.Clip | utils.py:160-165 | the result lies in [lo, hi]; values inside are kept, values outside go to the nearer bound |
| Utilities.Category | utils.py:168-172 | right-closed buckets (0,20] … (80,100]; no category iff the score is <= 0 or > 100 |
| Utilities.CategoryMonotone | utils.py:168-172 | a higher score never falls into a lower bucket |
| Utilities.CalculateRiskScore | utils.py:138-174 | one row per input in order; the frequency component of the row's country, in (0, 30]; the volatility of the row's country; the keyword component, 10 when a keyword matches and 0 otherwise; risk NaN iff volatility NaN; otherwise the component sum clipped to [0, 100], so a sum above 100 gives 100 and one below 0 gives 0; the category is the right-closed bucket of the risk, missing iff risk NaN or 0 |
| Utilities.LoneCountryHasNoScore | utils.py:153 | a country with a single row has NaN volatility, so its row has no risk score and no category |
| SharedUtils.EffectiveTtl | `src/utils/__init__.py:36` | a missing or zero ttl falls back to the default (ttl or self.ttl) |
| SharedUtils.ManagerGetMisses | `src/utils/__init__.py:22-32` | an absent key or a reached expiry is a miss that deletes the entry; before expiry the stored value is served and nothing changes |
| SharedUtils.ManagerSetThenGet | `src/utils/__init__.py:34-37` | a set value is served until now + ttl (the default for None or 0); other keys are unaffected |
| SharedUtils.CachedNeverServesNone | `src/utils/__init__.py:43-62` | a miss, an expired entry or a stored None is recomputed and stored; a hit returns the stored value and changes nothing |
| SharedUtils.CachedTwice | `src/utils/__init__.py:43-62` | a computed value is served by the next call with the same key within its lifetime, whatever that call would compute |
| SharedUtils.CacheManager.constructor | `src/utils/__init__.py:14-20` | an empty cache with the given default ttl |
| SharedUtils.CacheManager.Get | `src/utils/__init__.py:22-32` | returns ManagerLookup and leaves ManagerAfterGet |
| SharedUtils.CacheManager.Set | `src/utils/__init__.py:34-37` | stores the value with expiry now + effective ttl |
| SharedUtils.CacheManager.Clear | `src/utils/__init__.py:39-41` | empties the cache |
| SharedUtils.CacheManager.Cached | `src/utils/__init__.py:43-62` | result and entries are those of CachedCall |
| SharedUtils.BackoffDoubles | `src/utils/__init__.py:99` | the first wait is the base delay and each wait doubles the previous one |
| SharedUtils.Retry | `src/utils/__init__.py:87-102` | no attempt (None) for max_retries <= 0; otherwise 1..max_retries calls, all but the last failed; a value is the last call's; the re-raised error is the max_retries-th call's; wait k is delay * 2^k |
| SharedUtils.ValidateNewsData | `src/utils/__init__.py:108-112` | true iff baslik, url and ulke are all present and truthy |
| SharedUtils.ValidateSentimentScore | `src/utils/__init__.py:114-117` | true iff -1 <= score <= 1 |
| Text.StripIsSlice | `src/utils/__init__.py:122` | `strip()` returns a slice of the text outside which there is only whitespace |
| SharedUtils.CleanText | `src/utils/__init__.py:119-122` | "" for non-text; for text, the lower-cased slice that only whitespace surrounds and that neither begins nor ends with whitespace |
| SharedUtils.CleanTextIdempotent | `src/utils/__init__.py:119-122` | cleaning cleaned text changes nothing |
| RefactoredPipeline.Analyze | main_refactored.py:42-62 | 0.0 when the model call fails; +confidence for POSITIVE, -confidence otherwise; in [-1, 1] for a confidence in [0, 1] |
| RefactoredPipeline.Classify | main_refactored.py:82-93 | the top-ranked label; Unknown when the call fails or ranks nothing |
| RefactoredPipeline.ShortTitlesReachModelsWhole | main_refactored.py:49 | a title of at most 512 characters reaches both models unchanged |
| RefactoredPipeline.Capabilities | main_refactored.py:190-195 | the analyzer's capabilities never raise and return the adapters' values |
| RefactoredPipeline.AdapterFailureOnlyForNonText | main_refactored.py:42-93 | with these adapters, analysis fails on a title iff it is not text |
| RefactoredPipeline.CountryCodePassesThrough | main_refactored.py:110-116 | every country code reaches the request unchanged, listed or not |
| RefactoredPipeline.TextOr | main_refactored.py:136-137 | article.get(key, default): the default for a missing key, None for None, the text otherwise |
| RefactoredPipeline.NormalizedRecord | main_refactored.py:132-140 | exactly the five keys; ulke is the requested country; tarih is publishedAt up to its first T, or "" when missing |
| RefactoredPipeline.DateWithoutTKeptWhole | main_refactored.py:139 | a date without a T is kept whole |
| RefactoredPipeline.FetchNews | main_refactored.py:105-147 | a failed request, a None articles list or any raising article gives []; otherwise one record per article, in order, each for the requested country |
| RefactoredPipeline.AnalyzedRecordTyped | main_refactored.py:215-219 | analysis keeps text in the text columns and a number as score |
| RefactoredPipeline.FetchedRecordsTyped | main_refactored.py:203-205 | every fetched record has a title slot and text or None in its columns |
| RefactoredPipeline.FetchCountries | main_refactored.py:200-205 | the fetched batches of all configured countries, concatenated in order |
| RefactoredPipeline.RunMain | main_refactored.py:154-219 | True iff the keys validate, the models load and something was fetched; on False the table is untouched; on True every fetched record is analysed and the batch is stored as RunBatch does |
| RefactoredPipeline.ReportDoesNotRaise | main_refactored.py:226-236 | the closing country report cannot raise, since every analysed record carries a numeric score |

## Left out

- HTTP requests and the ThreadPool fan-out of `fetch_all_countries`: the
  service's answer per country is an input. The request parameters (query,
  page size, sort order, timeout) are not modelled.
- Telegram alerts (`send_telegram_alert`), the forever loop of `main_loop`
  with its sleeps and KeyboardInterrupt handling, and `main.py`'s
  `main_loop`: only one cycle body of main_old.py is modelled.
- Model loading (pipeline construction, device choice, ImportError): main_old.py
  models a missing model as `None`; main_refactored.py has a `modelsLoaded` flag.
- `round(x, 4)` is an abstract function `round4`. Float arithmetic is exact
  real arithmetic.
- `ErrorHandler.handle_api_error` only logs and re-raises, so it changes
  nothing observable and is not modelled.
- The cache key of `cached` (`func.__name__` with `str(args)`) is a
  parameter. Logging, `get_config_summary`, `LoggingConfig` paths, the ML
  model names, cache and monitoring flags, and numeric environment parsing
  (`int(os.getenv(...))`) are not modelled.
- `TrendPredictor.predict_sentiment_trend` and
  `AnomalyDetector.detect_trend_change` are not part of this model.
- Connection failures (`sqlite3.connect` raising, `DatabaseException`) are
  not modelled. The only store errors are a missing table and a missing key.
- Utilities.DetectSpikes: the `anomaly_score` column holds the square of
  the z value, because the model has no square root. A frame that already
  has an `is_anomaly` column is not distinguished from one that does not.
- Utilities.CalculateRiskScore: the square root in the volatility is a
  parameter, and NaN scores in the `skor` column are not modelled.
- RealSums.ConstantVarianceZero: only "all values equal gives variance 0"
  is proved, not the converse.
- Text.Lower: ASCII letters only. Python's Unicode case mapping (for
  example of Turkish letters) is not modelled.
- RefactoredPipeline.RunMain: the statistics logging at the end is not modelled
  beyond ReportDoesNotRaise. `init_database` always returns True here,
  because connection failures are out of scope.

=== FILE: analyzer_service.dfy ===
/** src/services/analyzer.py: the analysis service of the layered generation,
    with the sentiment and category capabilities injected. It enriches news
    dicts and summarises a country; it never writes to the store. */
module AnalyzerService {
  import opened Common
  import Settings
  import opened RealSums

  /** The injected capabilities. Each takes the value stored under 'baslik'
      and either returns or raises with a message. */
  datatype Analyzer = Analyzer(
    sentiment: Value -> Result<real, string>,
    classifier: Value -> Result<string, string>,
    thresholds: Settings.RiskThresholds)

  const ENRICHED_KEYS: set<string> := {"skor", "kategori", "risk_seviyesi", "analyzed_at"}
  const FALLBACK_KEYS: set<string> := {"skor", "kategori", "risk_seviyesi", "error"}

  /** The message of the first exception raised while analysing a title: by
      the sentiment capability, by the classifier, or by the debug log line,
      which slices the title and so fails for a value that is not text. */
  function Failure(a: Analyzer, baslik: Value): (f: Option<string>)
    ensures f.None? <==> a.sentiment(baslik).Ok? && a.classifier(baslik).Ok? && baslik.VStr?
  {
    if a.sentiment(baslik).Err? then Some(a.sentiment(baslik).error)
    else if a.classifier(baslik).Err? then Some(a.classifier(baslik).error)
    else match baslik
      case VStr(_) => None
      case VReal(_) => Some("'float' object is not subscriptable")
      case VNone => Some("'NoneType' object is not subscriptable")
  }

  /** `analyze_news`: a dict without 'baslik' (the empty dict included) comes
      back unchanged. Otherwise every other field is kept and the analysis
      fields are set, overriding earlier values: on success the score, the
      category, the configured risk label of the score and the time; after a
      failure the score 0.0, 'Error', '⚠️ HATA' and the error message. */
  function AnalyzeNews(a: Analyzer, news: Dict, now: string): (r: Dict)
    ensures "baslik" !in news ==> r == news
    ensures "baslik" in news && Failure(a, news["baslik"]).None? ==>
              && r.Keys == news.Keys + ENRICHED_KEYS
              && (forall k :: k in news && k !in ENRICHED_KEYS ==> r[k] == news[k])
              && r["skor"] == VReal(a.sentiment(news["baslik"]).value)
              && r["kategori"] == VStr(a.classifier(news["baslik"]).value)
              && r["risk_seviyesi"] == VStr(a.thresholds.GetRiskLevel(a.sentiment(news["baslik"]).value))
              && r["analyzed_at"] == VStr(now)
    ensures "baslik" in news && Failure(a, news["baslik"]).Some? ==>
              && r.Keys == news.Keys + FALLBACK_KEYS
              && (forall k :: k in news && k !in FALLBACK_KEYS ==> r[k] == news[k])
              && r["skor"] == VReal(0.0)
              && r["kategori"] == VStr("Error")
              && r["risk_seviyesi"] == VStr("⚠️ HATA")
              && r["error"] == VStr(Failure(a, news["baslik"]).value)
    ensures "error" !in r <==> "error" !in news && ("baslik" in news ==> Failure(a, news["baslik"]).None?)
  {
    if "baslik" !in news then news
    else
      var baslik := news["baslik"];
      match Failure(a, baslik)
      case None =>
        var score := a.sentiment(baslik).value;
        news["skor" := VReal(score)]
            ["kategori" := VStr(a.classifier(baslik).value)]
            ["risk_seviyesi" := VStr(a.thresholds.GetRiskLevel(score))]
            ["analyzed_at" := VStr(now)]
      case Some(msg) =>
        news["skor" := VReal(0.0)]
            ["kategori" := VStr("Error")]
            ["risk_seviyesi" := VStr("⚠️ HATA")]
            ["error" := VStr(msg)]
  }

  /** The number of results without an 'error' key: all of them exactly
      when none has the key, none of them exactly when all have it. */
  function CountWithoutError(rs: seq<Dict>): (c: nat)
    ensures c <= |rs|
    ensures c == |rs| <==> forall i :: 0 <= i < |rs| ==> "error" !in rs[i]
    ensures c == 0 <==> forall i :: 0 <= i < |rs| ==> "error" in rs[i]
  {
    if rs == [] then 0
    else
      var n := |rs| - 1;
      assert forall i :: 0 <= i < n ==> rs[..n][i] == rs[i];
      CountWithoutError(rs[..n]) + (if "error" !in rs[n] then 1 else 0)
  }

  /** The input is analysed without error: it carries no 'error' key, and if it
      has a title, both capabilities return on it and it is text. */
  predicate CleanInput(a: Analyzer, news: Dict)
  {
    "error" !in news && ("baslik" in news ==> Failure(a, news["baslik"]).None?)
  }

  function CountClean(a: Analyzer, ns: seq<Dict>): nat
  {
    if ns == [] then 0
    else CountClean(a, ns[..|ns| - 1]) + (if CleanInput(a, ns[|ns| - 1]) then 1 else 0)
  }

  /** `analyze_batch`: one result per input, in input order, and the count of
      results without an 'error' key that it logs. */
  method AnalyzeBatch(a: Analyzer, newsList: seq<Dict>, clock: nat -> string)
    returns (results: seq<Dict>, successful: nat)
    ensures |results| == |newsList|
    ensures forall i :: 0 <= i < |newsList| ==> results[i] == AnalyzeNews(a, newsList[i], clock(i))
    ensures successful == CountClean(a, newsList)
  {
    results := [];
    var i := 0;
    while i < |newsList|
      invariant 0 <= i <= |newsList|
      invariant |results| == i
      invariant forall j :: 0 <= j < i ==> results[j] == AnalyzeNews(a, newsList[j], clock(j))
    {
      results := results + [AnalyzeNews(a, newsList[i], clock(i))];
      i := i + 1;
    }
    successful := CountWithoutError(results);
    SuccessCount(a, newsList, results, clock);
  }

  /** The logged success count is the number of inputs analysed without error. */
  lemma {:induction false} SuccessCount(a: Analyzer, ns: seq<Dict>, rs: seq<Dict>, clock: nat -> string)
    requires |rs| == |ns|
    requires forall i :: 0 <= i < |ns| ==> rs[i] == AnalyzeNews(a, ns[i], clock(i))
    ensures CountWithoutError(rs) == CountClean(a, ns)
    decreases |ns|
  {
    if ns != [] {
      var n := |ns| - 1;
      SuccessCount(a, ns[..n], rs[..n], clock);
    }
  }

  /** The summary `get_country_sentiment` returns. */
  datatype CountrySentiment = CountrySentiment(
    country: string,
    avgScore: real,
    totalNews: nat,
    riskLevel: string,
    minScore: Option<real>,
    maxScore: Option<real>)

  /** `n.get('ulke') == country` */
  predicate OfCountry(d: Dict, country: string)
  {
    "ulke" in d && d["ulke"] == VStr(country)
  }

  /** The records of one country, in order: each record of the country as
      often as it occurs in `news`, and no other record. */
  function CountryNews(news: seq<Dict>, country: string): (r: seq<Dict>)
    ensures forall d :: d in r <==> d in news && OfCountry(d, country)
    ensures forall d :: multiset(r)[d] == if OfCountry(d, country) then multiset(news)[d] else 0
    ensures |r| <= |news|
  {
    if news == [] then []
    else
      var n := |news| - 1;
      assert news == news[..n] + [news[n]];
      assert multiset(news) == multiset(news[..n]) + multiset{news[n]};
      CountryNews(news[..n], country) + (if OfCountry(news[n], country) then [news[n]] else [])
  }

  /** Appending one record appends it to the country's records when it is
      of the country, and changes nothing otherwise. */
  lemma CountryNewsSnoc(news: seq<Dict>, d: Dict, country: string)
    ensures CountryNews(news + [d], country)
            == CountryNews(news, country) + (if OfCountry(d, country) then [d] else [])
  {
    var zs := news + [d];
    assert zs[..|zs| - 1] == news;
  }

  /** Concatenation is associative; stated over any element type so that the
      step of CountryNewsAppend does not reason about dicts. */
  lemma Assoc<T>(a: seq<T>, b: seq<T>, c: seq<T>)
    ensures (a + b) + c == a + (b + c)
  {
  }

  /** Filtering a concatenation filters each part and keeps them in order,
      so the records of the country appear in the order of `news`. */
  lemma {:induction false} CountryNewsAppend(xs: seq<Dict>, ys: seq<Dict>, country: string)
    ensures CountryNews(xs + ys, country) == CountryNews(xs, country) + CountryNews(ys, country)
    decreases |ys|
  {
    if ys == [] {
      assert xs + ys == xs;
    } else {
      var n := |ys| - 1;
      var init, d := ys[..n], ys[n];
      var last := if OfCountry(d, country) then [d] else [];
      calc {
        CountryNews(xs + ys, country);
        { assert xs + ys == (xs + init) + [d];
          CountryNewsSnoc(xs + init, d, country); }
        CountryNews(xs + init, country) + last;
        { CountryNewsAppend(xs, init, country); }
        (CountryNews(xs, country) + CountryNews(init, country)) + last;
        { Assoc(CountryNews(xs, country), CountryNews(init, country), last); }
        CountryNews(xs, country) + (CountryNews(init, country) + last);
        { assert ys == init + [d];
          CountryNewsSnoc(init, d, country); }
        CountryNews(xs, country) + CountryNews(ys, country);
      }
    }
  }

  /** `n.get('skor', 0)` as a summand: a missing score counts as 0, a score
      that is None or text makes `sum` raise. */
  function ScoreOf(d: Dict): Result<real, string>
  {
    if "skor" !in d then Ok(0.0)
    else match d["skor"]
      case VReal(x) => Ok(x)
      case VStr(_) => Err("TypeError")
      case VNone => Err("TypeError")
  }

  /** The summands of `scores`, once no record's score raises. */
  function Scores(ds: seq<Dict>): (xs: seq<real>)
    requires forall d :: d in ds ==> ScoreOf(d).Ok?
    ensures |xs| == |ds|
    ensures forall i :: 0 <= i < |ds| ==> xs[i] == ScoreOf(ds[i]).value
  {
    seq(|ds|, i requires 0 <= i < |ds| => ScoreOf(ds[i]).value)
  }

  /** `get_country_sentiment`. A country without records gives average 0.0,
      count 0 and '🔍 VERİ YOK'; a matching record whose score is None or text
      makes the call raise; otherwise the count is the number of matching
      records, the average is the sum of their scores over that count, the
      minimum and maximum are those of the scores, the risk label is the
      configured label of the average, and the average lies between the
      minimum and the maximum. */
  function GetCountrySentiment(a: Analyzer, analyzedNews: seq<Dict>, country: string)
    : (r: Result<CountrySentiment, string>)
    ensures CountryNews(analyzedNews, country) == [] ==>
              r == Ok(CountrySentiment(country, 0.0, 0, "🔍 VERİ YOK", None, None))
    ensures r.Err? <==> exists d :: d in CountryNews(analyzedNews, country) && ScoreOf(d).Err?
    ensures r.Ok? && CountryNews(analyzedNews, country) != [] ==>
              && r.value.country == country
              && r.value.totalNews == |CountryNews(analyzedNews, country)|
              && r.value.riskLevel == a.thresholds.GetRiskLevel(r.value.avgScore)
              && r.value.minScore.Some? && r.value.maxScore.Some?
              && r.value.minScore.value <= r.value.avgScore <= r.value.maxScore.value
    ensures r.Ok? && CountryNews(analyzedNews, country) != [] ==>
              var scores := Scores(CountryNews(analyzedNews, country));
              && r.value.avgScore == Sum(scores) / (|scores| as real)
              && r.value.minScore == Some(MinOf(scores))
              && r.value.maxScore == Some(MaxOf(scores))
  {
    var cn := CountryNews(analyzedNews, country);
    if cn == [] then Ok(CountrySentiment(country, 0.0, 0, "🔍 VERİ YOK", None, None))
    else if exists i :: 0 <= i < |cn| && ScoreOf(cn[i]).Err? then Err("TypeError")
    else
      var scores := Scores(cn);
      var avg := Sum(scores) / (|scores| as real);
      MeanBetween(scores);
      Ok(CountrySentiment(country, avg, |cn|, a.thresholds.GetRiskLevel(avg),
                          Some(MinOf(scores)), Some(MaxOf(scores))))
  }
}

=== FILE: app_config.dfy ===
/** config.py: the class-attribute configuration of the first two backend
    generations, its key accessors and the environment-to-class mapping. */
module AppConfig {
  import opened Common

  const GOOGLE_KEY_PLACEHOLDER := "your_google_api_key_here"
  const NEWS_KEY_PLACEHOLDER := "your_newsapi_key_here"
  const DEFAULT_DATABASE_URL := "sqlite:///haber_analizi.db"
  const TESTING_DATABASE_URL := "sqlite:///:memory:"

  /** The risk thresholds the first two backend generations use. */
  const CRITICAL_THRESHOLD: real := -0.7
  const WARNING_THRESHOLD: real := -0.4
  const POSITIVE_THRESHOLD: real := 0.5

  /** The monitored countries, in the order of the `COUNTRIES` dict. */
  const COUNTRIES: seq<(string, string)> := [
    ("us", "United States"), ("kr", "South Korea"), ("fr", "France"),
    ("es", "Spain"), ("it", "Italy"), ("gr", "Greece")]

  /** The closed set of topic labels handed to the zero-shot classifier. */
  const NEWS_CATEGORIES: seq<string> := [
    "Artificial Intelligence", "Cybersecurity", "Hardware & Chips",
    "Crypto & Fintech", "Electric Vehicles", "Software Development",
    "Cloud Computing", "Mobile Technology"]

  /** The attributes of the base `Config` class that come from the environment. */
  datatype Config = Config(
    googleApiKey: string,
    newsApiKey: string,
    databaseUrl: string,
    environment: string)

  /** Reads the base class attributes from the environment: a set variable's
      value as it is, an unset one's default. */
  function LoadConfig(env: Env): (c: Config)
    ensures "GOOGLE_API_KEY" !in env ==> c.googleApiKey == ""
    ensures "NEWS_API_KEY" !in env ==> c.newsApiKey == ""
    ensures "DATABASE_URL" !in env ==> c.databaseUrl == DEFAULT_DATABASE_URL
    ensures "ENVIRONMENT" !in env ==> c.environment == "development"
    ensures "GOOGLE_API_KEY" in env ==> c.googleApiKey == env["GOOGLE_API_KEY"]
    ensures "NEWS_API_KEY" in env ==> c.newsApiKey == env["NEWS_API_KEY"]
    ensures "DATABASE_URL" in env ==> c.databaseUrl == env["DATABASE_URL"]
    ensures "ENVIRONMENT" in env ==> c.environment == env["ENVIRONMENT"]
  {
    Config(
      GetEnv(env, "GOOGLE_API_KEY", ""),
      GetEnv(env, "NEWS_API_KEY", ""),
      GetEnv(env, "DATABASE_URL", DEFAULT_DATABASE_URL),
      GetEnv(env, "ENVIRONMENT", "development"))
  }

  /** The names of the required keys whose value is empty, in checking order. */
  function MissingKeys(c: Config): seq<string>
  {
    (if c.googleApiKey == "" then ["GOOGLE_API_KEY"] else [])
    + (if c.newsApiKey == "" then ["NEWS_API_KEY"] else [])
  }

  /** `Config.validate_keys`: false exactly when a required key is empty;
      a placeholder value counts as present. */
  function ValidateKeys(c: Config): (ok: bool)
    ensures !ok <==> c.googleApiKey == "" || c.newsApiKey == ""
  {
    |MissingKeys(c)| == 0
  }

  /** `Config.get_google_api_key`: the key, or "" for an empty key or the placeholder. */
  function GetGoogleApiKey(c: Config): (k: string)
    ensures k == "" <==> c.googleApiKey == "" || c.googleApiKey == GOOGLE_KEY_PLACEHOLDER
    ensures k != "" ==> k == c.googleApiKey
  {
    if c.googleApiKey == "" || c.googleApiKey == GOOGLE_KEY_PLACEHOLDER then "" else c.googleApiKey
  }

  /** `Config.get_news_api_key`: the key, or "" for an empty key or the placeholder. */
  function GetNewsApiKey(c: Config): (k: string)
    ensures k == "" <==> c.newsApiKey == "" || c.newsApiKey == NEWS_KEY_PLACEHOLDER
    ensures k != "" ==> k == c.newsApiKey
  {
    if c.newsApiKey == "" || c.newsApiKey == NEWS_KEY_PLACEHOLDER then "" else c.newsApiKey
  }

  /** Placeholder keys pass `validate_keys` although both accessors withhold them. */
  lemma PlaceholdersPassValidation(c: Config)
    requires c.googleApiKey == GOOGLE_KEY_PLACEHOLDER && c.newsApiKey == NEWS_KEY_PLACEHOLDER
    ensures ValidateKeys(c)
    ensures GetGoogleApiKey(c) == "" && GetNewsApiKey(c) == ""
  {
  }

  /** The configuration subclasses `get_config` can return. */
  datatype ConfigClass = DevelopmentConfig | ProductionConfig | TestingConfig

  /** `get_config`: the `config_by_name` lookup with DevelopmentConfig as fallback. */
  function GetConfig(environment: string): (cls: ConfigClass)
    ensures environment == "production" ==> cls == ProductionConfig
    ensures environment == "testing" ==> cls == TestingConfig
    ensures cls == DevelopmentConfig <==> environment != "production" && environment != "testing"
  {
    var byName := map[
      "development" := DevelopmentConfig,
      "production" := ProductionConfig,
      "testing" := TestingConfig,
      "default" := DevelopmentConfig];
    if environment in byName then byName[environment] else DevelopmentConfig
  }

  /** `DEBUG` of a class: set by the development and production subclasses,
      inherited by TestingConfig from the base (`ENVIRONMENT == "development"`). */
  function Debug(cls: ConfigClass, c: Config): bool
  {
    match cls
    case DevelopmentConfig => true
    case ProductionConfig => false
    case TestingConfig => c.environment == "development"
  }

  /** `TESTING` of a class. */
  function Testing(cls: ConfigClass): bool
  {
    match cls
    case DevelopmentConfig => false
    case ProductionConfig => false
    case TestingConfig => true
  }

  /** `DATABASE_URL` of a class: TestingConfig overrides it with an in-memory database. */
  function DatabaseUrl(cls: ConfigClass, c: Config): string
  {
    if cls == TestingConfig then TESTING_DATABASE_URL else c.databaseUrl
  }

  /** The configuration chosen from the environment, end to end. */
  lemma SelectedConfig(env: Env)
    ensures var c := LoadConfig(env); var cls := GetConfig(c.environment);
      && ("ENVIRONMENT" !in env ==> cls == DevelopmentConfig && Debug(cls, c) && !Testing(cls))
      && (c.environment == "testing" ==>
            (Testing(cls) && !Debug(cls, c) && DatabaseUrl(cls, c) == TESTING_DATABASE_URL))
      && (c.environment == "production" ==> !Debug(cls, c) && !Testing(cls))
  {
  }
}

=== FILE: backend.dfy ===
/** main.py: the backend of the second generation. The sentiment model, the
    zero-shot classifier and float rounding are passed in as functions; the
    per-country article lists come in as inputs. */
module Backend {
  import opened Common
  import Text
  import AppConfig
  import Settings
  import NR = NewsRepository

  /** The model capabilities. `None` stands for a call that raises; the
      classifier returns its labels ranked best first; `round4` is
      `round(x, 4)`, left abstract. */
  datatype Models = Models(
    sentiment: string -> Option<SentimentOutput>,
    classifier: string -> Option<seq<string>>,
    round4: real -> real)

  /** The four labels of the backend's risk table. */
  datatype Level = Kritik | Uyari | Normal | Pozitif {

    function Label(): string
    {
      match this
      case Kritik => " KRİTİK"
      case Uyari => " UYARI"
      case Normal => " NORMAL"
      case Pozitif => " POZİTİF"
    }

    /** 3 for the most severe label, 0 for the least. */
    function Severity(): nat
    {
      match this
      case Kritik => 3
      case Uyari => 2
      case Normal => 1
      case Pozitif => 0
    }
  }

  /** The branch of `calculate_risk_level` a score takes. */
  function RiskLevel(score: real): (l: Level)
    ensures l == Kritik <==> score <= AppConfig.CRITICAL_THRESHOLD
    ensures l == Uyari <==> AppConfig.CRITICAL_THRESHOLD < score <= AppConfig.WARNING_THRESHOLD
    ensures l == Pozitif <==> AppConfig.WARNING_THRESHOLD < score && AppConfig.POSITIVE_THRESHOLD <= score
    ensures l == Normal <==> AppConfig.WARNING_THRESHOLD < score < AppConfig.POSITIVE_THRESHOLD
  {
    if score <= AppConfig.CRITICAL_THRESHOLD then Kritik
    else if score <= AppConfig.WARNING_THRESHOLD then Uyari
    else if score >= AppConfig.POSITIVE_THRESHOLD then Pozitif
    else Normal
  }

  /** `calculate_risk_level` */
  function CalculateRiskLevel(score: real): (r: string)
    ensures r == " KRİTİK" <==> score <= -0.7
    ensures r == " UYARI" <==> -0.7 < score <= -0.4
    ensures r == " POZİTİF" <==> 0.5 <= score
    ensures r == " NORMAL" <==> -0.4 < score < 0.5
  {
    RiskLevel(score).Label()
  }

  /** A higher score never receives a more severe label. */
  lemma RiskLevelMonotone(s1: real, s2: real)
    requires s1 <= s2
    ensures RiskLevel(s2).Severity() <= RiskLevel(s1).Severity()
  {
  }

  /** The values the backend tests assert. */
  lemma RiskLevelTable()
    ensures CalculateRiskLevel(-0.8) == " KRİTİK"
    ensures CalculateRiskLevel(-0.5) == " UYARI"
    ensures CalculateRiskLevel(0.7) == " POZİTİF"
    ensures CalculateRiskLevel(0.0) == " NORMAL"
  {
  }

  /** The two risk tables of the code base, compared on every score: they
      agree on the critical and warning bands; this table's NORMAL band is the
      five-level table's NORMAL band plus the part [0.0, 0.5) of its POZİTİF
      band; this table's POZİTİF is the five-level table's ÇOK POZİTİF. So 0.0
      is NORMAL here and POZİTİF there. */
  lemma RiskTablesDiverge(score: real)
    ensures var l4 := RiskLevel(score);
            var l5 := Settings.DEFAULT_THRESHOLDS.Level(score);
            && (l4 == Kritik <==> l5 == Settings.Kritik)
            && (l4 == Uyari <==> l5 == Settings.Uyari)
            && (l4 == Normal <==> l5 == Settings.Normal || (l5 == Settings.Pozitif && 0.0 <= score < 0.5))
            && (l4 == Pozitif <==> l5 == Settings.CokPozitif)
    ensures RiskLevel(0.0) == Normal && Settings.DEFAULT_THRESHOLDS.Level(0.0) == Settings.Pozitif
  {
  }

  /** `analyze_article`: the score is the confidence for a POSITIVE label and
      its negation otherwise (then rounded), the category is the top-ranked
      label, the risk label is the chain applied to the rounded score. `None`
      when a model raises or the classifier ranks no label. */
  function AnalyzeArticle(m: Models, baslik: string): (r: Option<(real, string, string)>)
    ensures r.Some? <==> m.sentiment(baslik).Some? && m.classifier(baslik).Some?
                         && |m.classifier(baslik).value| > 0
    ensures r.Some? ==>
              var out := m.sentiment(baslik).value;
              && r.value.0 == m.round4(if out.polarity == "POSITIVE" then out.score else -out.score)
              && r.value.1 == m.classifier(baslik).value[0]
              && r.value.2 == CalculateRiskLevel(r.value.0)
  {
    match m.sentiment(baslik)
    case None => None
    case Some(out) =>
      var puan := m.round4(if out.polarity == "POSITIVE" then out.score else -out.score);
      match m.classifier(baslik)
      case None => None
      case Some(labels) =>
        if |labels| == 0 then None
        else Some((puan, labels[0], CalculateRiskLevel(puan)))
  }

  /** A record built by `process_articles`; `kaynak` is None when the source
      object maps `name` to None. */
  datatype Processed = Processed(
    ulke: string,
    baslik: string,
    skor: real,
    url: string,
    kategori: string,
    kaynak: Option<string>,
    riskSeviyesi: string,
    tarih: string)

  /** The filter: a non-empty title and url, and no "[Removed]" in the title. */
  predicate KeepArticle(a: Article)
  {
    TruthyText(a.title) && TruthyText(a.url) && !Text.Contains(a.title.v, "[Removed]")
  }

  /** `article.get('source', {}).get('name', 'Unknown')`: a source that is None
      raises AttributeError. */
  function SourceName(a: Article): (r: Result<Option<string>, string>)
    ensures r.Err? <==> a.source.Null?
    ensures a.source.Absent? ==> r == Ok(Some("Unknown"))
  {
    match a.source
    case Absent => Ok(Some("Unknown"))
    case Null => Err("AttributeError")
    case Val(s) => Ok(s.name.GetOr("Unknown"))
  }

  /** The article yields a record: it passes the filter and its analysis succeeds. */
  predicate Emits(m: Models, a: Article)
  {
    KeepArticle(a) && AnalyzeArticle(m, a.title.v).Some?
  }

  function RecordOf(m: Models, a: Article, i: nat, cc: string, clock: nat -> string): Processed
    requires Emits(m, a) && SourceName(a).Ok?
  {
    var res := AnalyzeArticle(m, a.title.v).value;
    Processed(cc, a.title.v, res.0, a.url.v, res.1, SourceName(a).value, res.2, clock(i))
  }

  /** The result of `process_articles` on a prefix of the articles; `clock(i)`
      is the time read while building the record of article i. */
  function ProcessedFrom(m: Models, articles: seq<Article>, cc: string, clock: nat -> string)
    : (r: Result<seq<Processed>, string>)
    ensures r.Ok? ==> |r.value| <= |articles|
    ensures r.Ok? ==> forall k :: 0 <= k < |r.value| ==>
              r.value[k].ulke == cc && r.value[k].riskSeviyesi == CalculateRiskLevel(r.value[k].skor)
    decreases |articles|
  {
    if |articles| == 0 then Ok([])
    else
      var n := |articles| - 1;
      var prev := ProcessedFrom(m, articles[..n], cc, clock);
      if prev.Err? then prev
      else if SourceName(articles[n]).Err? then Err(SourceName(articles[n]).error)
      else if !Emits(m, articles[n]) then prev
      else Ok(prev.value + [RecordOf(m, articles[n], n, cc, clock)])
  }

  /** Once a prefix has raised, the whole call raises with the same error. */
  lemma {:induction false} ErrSticky(m: Models, articles: seq<Article>, cc: string, clock: nat -> string, i: nat)
    requires i <= |articles|
    requires ProcessedFrom(m, articles[..i], cc, clock).Err?
    ensures ProcessedFrom(m, articles, cc, clock) == ProcessedFrom(m, articles[..i], cc, clock)
    decreases |articles| - i
  {
    if i < |articles| {
      var n := |articles| - 1;
      assert articles[..n][..i] == articles[..i];
      ErrSticky(m, articles[..n], cc, clock, i);
    } else {
      assert articles[..i] == articles;
    }
  }

  /** The call raises exactly when some article has a source that is None,
      whether or not that article would pass the filter. */
  lemma {:induction false} ProcessAbortsIff(m: Models, articles: seq<Article>, cc: string, clock: nat -> string)
    ensures ProcessedFrom(m, articles, cc, clock).Err?
        <==> exists i :: 0 <= i < |articles| && articles[i].source.Null?
    decreases |articles|
  {
    if |articles| > 0 {
      var n := |articles| - 1;
      ProcessAbortsIff(m, articles[..n], cc, clock);
      if exists i :: 0 <= i < n && articles[..n][i].source.Null? {
        var i :| 0 <= i < n && articles[..n][i].source.Null?;
        assert articles[i].source.Null?;
      }
      if exists i :: 0 <= i < |articles| && articles[i].source.Null? {
        var i :| 0 <= i < |articles| && articles[i].source.Null?;
        if i < n { assert articles[..n][i].source.Null?; }
      }
    }
  }

  /** When the call does not raise, its k-th record is built from the k-th
      article that yields one. */
  lemma {:induction false} RecordsAt(m: Models, articles: seq<Article>, cc: string, clock: nat -> string)
    requires ProcessedFrom(m, articles, cc, clock).Ok?
    ensures var out := ProcessedFrom(m, articles, cc, clock).value;
            var idx := Positions(articles, a => Emits(m, a));
            && |idx| == |out|
            && forall k :: 0 <= k < |idx| ==>
                 SourceName(articles[idx[k]]).Ok?
                 && out[k] == RecordOf(m, articles[idx[k]], idx[k], cc, clock)
    decreases |articles|
  {
    if |articles| > 0 {
      var n := |articles| - 1;
      var pre := articles[..n];
      RecordsAt(m, pre, cc, clock);
      var prev := ProcessedFrom(m, pre, cc, clock).value;
      var pidx := Positions(pre, a => Emits(m, a));
      forall k | 0 <= k < |pidx|
        ensures SourceName(articles[pidx[k]]).Ok?
        ensures prev[k] == RecordOf(m, articles[pidx[k]], pidx[k], cc, clock)
      {
        assert pre[pidx[k]] == articles[pidx[k]];
      }
    }
  }

  /** When the call does not raise, its output is, in input order, one record
      per article that passes the filter and whose analysis succeeds: `idx`
      lists the positions of those articles, increasing, and covers all of
      them. Each record carries the country code and the article's title and
      url unchanged. */
  lemma ProcessedOrigins(m: Models, articles: seq<Article>, cc: string, clock: nat -> string)
    returns (idx: seq<nat>)
    requires ProcessedFrom(m, articles, cc, clock).Ok?
    ensures var out := ProcessedFrom(m, articles, cc, clock).value;
            && |idx| == |out|
            && (forall k :: 0 <= k < |idx| ==>
                  && idx[k] < |articles|
                  && Emits(m, articles[idx[k]])
                  && SourceName(articles[idx[k]]).Ok?
                  && out[k] == RecordOf(m, articles[idx[k]], idx[k], cc, clock))
            && (forall k1, k2 :: 0 <= k1 < k2 < |idx| ==> idx[k1] < idx[k2])
            && (forall i :: 0 <= i < |articles| && Emits(m, articles[i]) ==> i in idx)
  {
    idx := Positions(articles, a => Emits(m, a));
    RecordsAt(m, articles, cc, clock);
  }

  /** `process_articles`, the loop over the articles. */
  method ProcessArticles(m: Models, articles: seq<Article>, cc: string, clock: nat -> string)
    returns (r: Result<seq<Processed>, string>)
    ensures r == ProcessedFrom(m, articles, cc, clock)
  {
    var processed: seq<Processed> := [];
    var i := 0;
    while i < |articles|
      invariant 0 <= i <= |articles|
      invariant ProcessedFrom(m, articles[..i], cc, clock) == Ok(processed)
    {
      assert articles[..i + 1][..i] == articles[..i];
      var a := articles[i];
      var kaynak := SourceName(a);
      if kaynak.Err? {
        ErrSticky(m, articles, cc, clock, i + 1);
        return Err(kaynak.error);
      }
      if KeepArticle(a) {
        var res := AnalyzeArticle(m, a.title.v);
        if res.Some? {
          processed := processed + [Processed(cc, a.title.v, res.value.0, a.url.v, res.value.1,
                                              kaynak.value, res.value.2, clock(i))];
        }
      }
      i := i + 1;
    }
    assert articles[..i] == articles;
    r := Ok(processed);
  }

  /** The INSERT parameters of `insert_news`: the five NOT NULL columns are
      subscripted, so a missing key raises KeyError (checked in the order of
      the tuple); the others default. */
  function StrictBind(n: NR.NewsInput): (r: Result<NR.InsertParams, NR.StoreError>)
    ensures r.Err? <==> n.ulke.Absent? || n.tarih.Absent? || n.baslik.Absent? || n.skor.Absent? || n.url.Absent?
    ensures n.ulke.Absent? ==> r == Err(NR.KeyError("ulke"))
    ensures r.Ok? ==> && r.value.ulke == n.ulke.Get() && r.value.url == n.url.Get()
                      && r.value.baslik == n.baslik.Get() && r.value.tarih == n.tarih.Get()
                      && r.value.skor == n.skor.Get()
                      && r.value.kategori == n.kategori.GetOr("Unknown")
                      && r.value.kaynak == n.kaynak.GetOr("NewsAPI")
                      && r.value.riskSeviyesi == n.riskSeviyesi.GetOr("Normal")
  {
    if n.ulke.Absent? then Err(NR.KeyError("ulke"))
    else if n.tarih.Absent? then Err(NR.KeyError("tarih"))
    else if n.baslik.Absent? then Err(NR.KeyError("baslik"))
    else if n.skor.Absent? then Err(NR.KeyError("skor"))
    else if n.url.Absent? then Err(NR.KeyError("url"))
    else Ok(NR.InsertParams(n.ulke.Get(), n.tarih.Get(), n.baslik.Get(), n.skor.Get(), n.url.Get(),
                            n.kategori.GetOr("Unknown"), n.kaynak.GetOr("NewsAPI"),
                            n.riskSeviyesi.GetOr("Normal")))
  }

  predicate AllBind(ns: seq<NR.NewsInput>)
  {
    forall i :: 0 <= i < |ns| ==> StrictBind(ns[i]).Ok?
  }

  /** Record j is the first whose parameters cannot be built. */
  predicate FirstUnbound(ns: seq<NR.NewsInput>, j: int)
  {
    0 <= j < |ns| && StrictBind(ns[j]).Err? && forall k :: 0 <= k < j ==> StrictBind(ns[k]).Ok?
  }

  function StrictParams(ns: seq<NR.NewsInput>): (ps: seq<NR.InsertParams>)
    requires AllBind(ns)
    ensures |ps| == |ns| && forall i :: 0 <= i < |ns| ==> Ok(ps[i]) == StrictBind(ns[i])
  {
    seq(|ns|, i requires 0 <= i < |ns| => StrictBind(ns[i]).value)
  }

  /** Binding one more record extends the parameter list by its parameters. */
  lemma StrictParamsSnoc(ns: seq<NR.NewsInput>, i: nat)
    requires i < |ns| && AllBind(ns[..i]) && StrictBind(ns[i]).Ok?
    ensures AllBind(ns[..i + 1])
    ensures StrictParams(ns[..i + 1]) == StrictParams(ns[..i]) + [StrictBind(ns[i]).value]
  {
    assert ns[..i + 1][..i] == ns[..i];
  }

  /** The first record that cannot be bound after a bound prefix. */
  lemma FirstUnboundAt(ns: seq<NR.NewsInput>, i: nat)
    requires i < |ns| && AllBind(ns[..i]) && StrictBind(ns[i]).Err?
    ensures FirstUnbound(ns, i)
  {
    forall k | 0 <= k < i
      ensures StrictBind(ns[k]).Ok?
    {
      assert ns[..i][k] == ns[k];
    }
  }

  /** A record built by `process_articles`, as the dict handed to `insert_news`. */
  function ToInput(p: Processed): NR.NewsInput
  {
    NR.NewsInput(Val(p.ulke), Val(p.tarih), Val(p.baslik), Val(p.skor), Val(p.url), Val(p.kategori),
                 if p.kaynak.Some? then Val(p.kaynak.value) else Null, Val(p.riskSeviyesi))
  }

  /** Records built by `process_articles` never raise KeyError and satisfy
      every NOT NULL constraint; only the url can still reject them. */
  lemma ProcessedRecordsInsertable(p: Processed)
    ensures StrictBind(ToInput(p)).Ok? && NR.NotNullOk(StrictBind(ToInput(p)).value)
    ensures StrictBind(ToInput(p)).value.url == Some(p.url)
  {
  }

  /** main.py's `Database`, over the shared table. */
  class Database {
    const dbPath: string
    const db: NR.NewsTable

    constructor (dbPath: string, db: NR.NewsTable)
      ensures this.dbPath == dbPath && this.db == db
    {
      this.dbPath := dbPath;
      this.db := db;
    }

    /** `init_db`: creates the table if needed; keeps the rows. */
    method InitDb()
      requires db.Valid()
      modifies db
      ensures db.Valid() && db.created && db.Snapshot() == old(db.Snapshot())
    {
      db.CreateIfNotExists();
    }

    /** `insert_news`: one INSERT per record inside one transaction. An
        IntegrityError skips that record; any other error (a missing required
        key, a missing table) rolls the whole batch back and propagates. On
        success the number of rows added is returned. */
    method InsertNews(newsData: seq<NR.NewsInput>, now: string) returns (r: Result<nat, NR.StoreError>)
      requires db.Valid()
      modifies db
      ensures db.Valid() && db.created == old(db.created)
      ensures newsData == [] ==> r == Ok(0) && db.Snapshot() == old(db.Snapshot())
      ensures AllBind(newsData) && old(db.created) ==>
                var t := NR.RunBatch(old(db.Snapshot()), StrictParams(newsData), now);
                r == Ok(t.inserted) && db.Snapshot() == t.store
      ensures r.Err? ==> db.Snapshot() == old(db.Snapshot())
      ensures !AllBind(newsData) ==> r.Err?
      ensures !AllBind(newsData) && old(db.created) ==>
                exists j :: FirstUnbound(newsData, j) && r == Err(StrictBind(newsData[j]).error)
      ensures newsData != [] && !old(db.created) ==> r.Err?
    {
      var start := db.Snapshot();
      var inserted := 0;
      ghost var duplicates := 0;
      var i := 0;
      while i < |newsData|
        invariant 0 <= i <= |newsData|
        invariant db.Valid() && db.created == old(db.created)
        invariant !db.created ==> i == 0
        invariant AllBind(newsData[..i])
        invariant NR.Tally(db.Snapshot(), inserted, duplicates) == NR.RunBatch(start, StrictParams(newsData[..i]), now)
      {
        var p := StrictBind(newsData[i]);
        if p.Err? {
          db.Restore(start);
          FirstUnboundAt(newsData, i);
          return Err(p.error);
        }
        if !db.created {
          db.Restore(start);
          return Err(NR.NoSuchTable);
        }
        StrictParamsSnoc(newsData, i);
        NR.RunBatchAppend(start, StrictParams(newsData[..i]), p.value, now);
        var ok := db.Insert(p.value, now);
        if ok {
          inserted := inserted + 1;
        } else {
          duplicates := duplicates + 1;
        }
        i := i + 1;
      }
      assert newsData[..i] == newsData;
      r := Ok(inserted);
    }
  }

  /** The backend test of inserting the same one-record batch twice:
      1 row the first time, none the second. */
  method InsertSameRecordTwice(d: Database, n: NR.NewsInput, now: string) returns (first: Result<nat, NR.StoreError>, second: Result<nat, NR.StoreError>)
    requires d.db.Valid() && d.db.created
    requires n.ulke.Val? && n.tarih.Val? && n.baslik.Val? && n.skor.Val? && n.url.Val?
    requires !NR.UrlStored(d.db.rows, n.url.v)
    modifies d.db
    ensures first == Ok(1) && second == Ok(0)
  {
    assert StrictParams([n]) == [StrictBind(n).value];
    NR.ReinsertSameRecord(d.db.Snapshot(), StrictBind(n).value, now);
    first := d.InsertNews([n], now);
    second := d.InsertNews([n], now);
  }
}

=== FILE: common.dfy ===
/** Shared value shapes: optional values, results, and the slots of the
    Python dictionaries that the pipeline passes between its stages. */
module Common {

  datatype Option<T> = None | Some(value: T)

  datatype Result<T, E> = Ok(value: T) | Err(error: E)

  /** One key of a Python dict: the key is missing, the key maps to None,
      or the key maps to a value. */
  datatype Field<T> = Absent | Null | Val(v: T) {

    /** `d.get(key)`: None both when the key is missing and when it maps to None. */
    function Get(): (r: Option<T>)
      ensures r.Some? <==> Val?
      ensures Val? ==> r == Some(v)
    {
      if Val? then Some(v) else None
    }

    /** `d.get(key, default)`: the default only when the key is missing. */
    function GetOr(default: T): (r: Option<T>)
      ensures Absent? ==> r == Some(default)
      ensures Null? ==> r == None
      ensures Val? ==> r == Some(v)
    {
      match this
      case Absent => Some(default)
      case Null => None
      case Val(x) => Some(x)
    }
  }

  /** A dynamically typed value held in a dict of the service layer. */
  datatype Value = VStr(s: string) | VReal(r: real) | VNone

  /** A Python dict with string keys. */
  type Dict = map<string, Value>

  /** Python truthiness of a value: non-empty text, a non-zero number. */
  predicate Truthy(v: Value)
  {
    match v
    case VStr(s) => s != ""
    case VReal(r) => r != 0.0
    case VNone => false
  }

  /** Python truthiness of an optional text value (`not x` is false). */
  predicate TruthyText(f: Field<string>)
  {
    f.Val? && f.v != ""
  }

  /** The process environment, passed in explicitly. */
  type Env = map<string, string>

  /** `os.getenv(key, default)` */
  function GetEnv(env: Env, key: string, default: string): (r: string)
    ensures key in env ==> r == env[key]
    ensures key !in env ==> r == default
  {
    if key in env then env[key] else default
  }

  /** The `source` object of an article returned by the news search service. */
  datatype Source = Source(name: Field<string>)

  /** A raw article object returned by the news search service. */
  datatype Article = Article(
    title: Field<string>,
    url: Field<string>,
    source: Field<Source>,
    publishedAt: Field<string>)

  /** The positions, in increasing order, of the articles that `keep` accepts. */
  function Positions(articles: seq<Article>, keep: Article -> bool): (idx: seq<nat>)
    ensures forall k :: 0 <= k < |idx| ==> idx[k] < |articles| && keep(articles[idx[k]])
    ensures forall k1, k2 :: 0 <= k1 < k2 < |idx| ==> idx[k1] < idx[k2]
    ensures forall i :: 0 <= i < |articles| && keep(articles[i]) ==> i in idx
    decreases |articles|
  {
    if articles == [] then []
    else
      var n := |articles| - 1;
      assert forall i :: 0 <= i < n ==> articles[..n][i] == articles[i];
      Positions(articles[..n], keep) + (if keep(articles[n]) then [n] else [])
  }

  /** The (label, confidence) pair a sentiment model returns for one text;
      `polarity` is the label, "POSITIVE" or "NEGATIVE". */
  datatype SentimentOutput = SentimentOutput(polarity: string, score: real)
}

=== FILE: legacy_backend.dfy ===
/** main_old.py: the defensive first generation of the backend. Every
    per-record failure is swallowed, the models may be missing, stored text is
    truncated, and one cycle of the main loop counts what it stored. */
module LegacyBackend {
  import opened Common
  import Text
  import AppConfig
  import NR = NewsRepository
  import Backend

  /** The model capabilities, each of which may have failed to load. */
  datatype LegacyModels = LegacyModels(
    sentiment: Option<string -> Option<SentimentOutput>>,
    classifier: Option<string -> Option<seq<string>>>,
    round4: real -> real)

  /** The INSERT parameters of the defensive `insert_news`: every column is
      read with `get` and a default, so only an explicit None reaches a NOT
      NULL column; a present value is bound as it is and None as NULL. */
  function LenientBind(n: NR.NewsInput): (p: NR.InsertParams)
    ensures p.ulke == n.ulke.GetOr("Unknown") && p.tarih == n.tarih.GetOr("")
    ensures p.baslik == n.baslik.GetOr("") && p.skor == n.skor.GetOr(0.0)
    ensures p.url == n.url.GetOr("") && p.kategori == n.kategori.GetOr("Unknown")
    ensures p.kaynak == n.kaynak.GetOr("NewsAPI") && p.riskSeviyesi == n.riskSeviyesi.GetOr("Normal")
    ensures n.ulke.Absent? ==> p.ulke == Some("Unknown")
    ensures n.tarih.Absent? ==> p.tarih == Some("")
    ensures n.baslik.Absent? ==> p.baslik == Some("")
    ensures n.skor.Absent? ==> p.skor == Some(0.0)
    ensures n.url.Absent? ==> p.url == Some("")
    ensures n.kategori.Absent? ==> p.kategori == Some("Unknown")
    ensures n.kaynak.Absent? ==> p.kaynak == Some("NewsAPI")
    ensures n.riskSeviyesi.Absent? ==> p.riskSeviyesi == Some("Normal")
    ensures NR.NotNullOk(p) <==> !n.ulke.Null? && !n.tarih.Null? && !n.baslik.Null? && !n.skor.Null? && !n.url.Null?
  {
    NR.InsertParams(n.ulke.GetOr("Unknown"), n.tarih.GetOr(""), n.baslik.GetOr(""), n.skor.GetOr(0.0),
                    n.url.GetOr(""), n.kategori.GetOr("Unknown"), n.kaynak.GetOr("NewsAPI"),
                    n.riskSeviyesi.GetOr("Normal"))
  }

  function LenientParams(ns: seq<NR.NewsInput>): (ps: seq<NR.InsertParams>)
    ensures |ps| == |ns| && forall i :: 0 <= i < |ns| ==> ps[i] == LenientBind(ns[i])
  {
    seq(|ns|, i requires 0 <= i < |ns| => LenientBind(ns[i]))
  }

  /** What the defensive `insert_news` does to the table and returns: an empty
      batch returns 0; with the table missing every INSERT fails, is skipped,
      and 0 is returned; otherwise the batch runs record by record. */
  function LegacyInsert(st: NR.Store, created: bool, ns: seq<NR.NewsInput>, now: string): (r: (NR.Store, nat))
    ensures ns == [] || !created ==> r == (st, 0)
    ensures |r.0.rows| == |st.rows| + r.1 && r.0.rows[..|st.rows|] == st.rows
    ensures r.1 <= |ns|
    ensures NR.StoreValid(st) ==> NR.StoreValid(r.0)
  {
    if ns == [] || !created then (st, 0)
    else
      var t := NR.RunBatch(st, LenientParams(ns), now);
      NR.RunBatchPreserves(st, LenientParams(ns), now);
      (t.store, t.inserted)
  }

  /** Records that lack a url are all stored under the empty url, so of two
      such records with complete other columns only the first is kept. */
  lemma MissingUrlsCollide(st: NR.Store, a: NR.NewsInput, b: NR.NewsInput, now: string)
    requires a.url.Absent? && b.url.Absent?
    requires !a.ulke.Null? && !a.tarih.Null? && !a.baslik.Null? && !a.skor.Null?
    requires !b.ulke.Null? && !b.tarih.Null? && !b.baslik.Null? && !b.skor.Null?
    requires !NR.UrlStored(st.rows, "")
    ensures LegacyInsert(st, true, [a, b], now).1 == 1
  {
    var ps := LenientParams([a, b]);
    assert ps[..1][..0] == [];
    assert ps[..2] == ps;
    var t1 := NR.RunBatch(st, ps[..1], now);
    var row := NR.MakeRow(st.nextId, ps[0], now);
    NR.RunBatchPrefix(st, ps, 0, now);
    assert ps[..0] == [];
    NR.AdmitsByUrl(st.rows, ps[0]);
    assert t1.store.rows == st.rows + [row];
    NR.UrlStoredAppend(st.rows, row, "");
    NR.AdmitsByUrl(t1.store.rows, ps[1]);
  }

  /** main_old.py's `Database`, over the shared table. */
  class LegacyDatabase {
    const dbPath: string
    const db: NR.NewsTable

    constructor (dbPath: string, db: NR.NewsTable)
      ensures this.dbPath == dbPath && this.db == db
    {
      this.dbPath := dbPath;
      this.db := db;
    }

    /** `init_db`: creates the table if needed; keeps the rows. */
    method InitDb()
      requires db.Valid()
      modifies db
      ensures db.Valid() && db.created && db.Snapshot() == old(db.Snapshot())
    {
      db.CreateIfNotExists();
    }

    /** `insert_news`: never raises; returns the number of rows added. */
    method InsertNews(newsData: seq<NR.NewsInput>, now: string) returns (count: nat)
      requires db.Valid()
      modifies db
      ensures db.Valid() && db.created == old(db.created)
      ensures (db.Snapshot(), count) == LegacyInsert(old(db.Snapshot()), old(db.created), newsData, now)
    {
      if newsData == [] {
        return 0;
      }
      if !db.created {
        // every INSERT fails on the missing table and is skipped
        return 0;
      }
      ghost var start := db.Snapshot();
      ghost var ps := LenientParams(newsData);
      count := 0;
      ghost var skipped := 0;
      var i := 0;
      while i < |newsData|
        invariant 0 <= i <= |newsData|
        invariant db.Valid() && db.created
        invariant NR.Tally(db.Snapshot(), count, skipped) == NR.RunBatch(start, ps[..i], now)
      {
        NR.RunBatchPrefix(start, ps, i, now);
        var ok := db.Insert(LenientBind(newsData[i]), now);
        if ok {
          count := count + 1;
        } else {
          skipped := skipped + 1;
        }
        i := i + 1;
      }
      assert ps[..i] == ps;
    }
  }

  /** `analyze_article` of the defensive generation: an empty or non-text
      title gives (0.0, "Unknown", " HATA"); otherwise the first 512
      characters go to each model that is loaded, a missing or failing
      sentiment model gives 0.0, a missing or failing classifier gives
      "Unknown", and the risk label is the chain applied to the score. */
  function AnalyzeArticle(m: LegacyModels, baslik: Value): (r: (real, string, string))
    ensures !(baslik.VStr? && baslik.s != "") ==> r == (0.0, "Unknown", " HATA")
    ensures baslik.VStr? && baslik.s != "" ==> r.2 == Backend.CalculateRiskLevel(r.0)
    ensures (baslik.VStr? && baslik.s != "" &&
             (m.sentiment.None? || m.sentiment.value(Text.Prefix(baslik.s, 512)).None?))
            ==> r.0 == 0.0 && r.2 == " NORMAL"
    ensures (baslik.VStr? && baslik.s != "" && m.sentiment.Some?
             && m.sentiment.value(Text.Prefix(baslik.s, 512)).Some?)
            ==> var o := m.sentiment.value(Text.Prefix(baslik.s, 512)).value;
                r.0 == m.round4(if o.polarity == "POSITIVE" then o.score else -o.score)
    ensures (baslik.VStr? && baslik.s != "" &&
             (m.classifier.None? || m.classifier.value(Text.Prefix(baslik.s, 512)).None?
              || m.classifier.value(Text.Prefix(baslik.s, 512)).value == []))
            ==> r.1 == "Unknown"
    ensures (baslik.VStr? && baslik.s != "" && m.classifier.Some?
             && m.classifier.value(Text.Prefix(baslik.s, 512)).Some?
             && m.classifier.value(Text.Prefix(baslik.s, 512)).value != [])
            ==> r.1 == m.classifier.value(Text.Prefix(baslik.s, 512)).value[0]
  {
    if !(baslik.VStr? && baslik.s != "") then (0.0, "Unknown", " HATA")
    else
      var text := Text.Prefix(baslik.s, 512);
      var puan :=
        match m.sentiment
        case None => 0.0
        case Some(pipe) =>
          match pipe(text)
          case None => 0.0
          case Some(out) => m.round4(if out.polarity == "POSITIVE" then out.score else -out.score);
      var kategori :=
        match m.classifier
        case None => "Unknown"
        case Some(classify) =>
          match classify(text)
          case None => "Unknown"
          case Some(labels) => if |labels| == 0 then "Unknown" else labels[0];
      (puan, kategori, Backend.CalculateRiskLevel(puan))
  }

  /** The two fallbacks are independent: the score depends only on the
      sentiment model, the category only on the classifier. */
  lemma AnalyzeFallbacksIndependent(m1: LegacyModels, m2: LegacyModels, baslik: Value)
    ensures m1.sentiment == m2.sentiment && m1.round4 == m2.round4 ==>
              AnalyzeArticle(m1, baslik).0 == AnalyzeArticle(m2, baslik).0
    ensures m1.classifier == m2.classifier ==>
              AnalyzeArticle(m1, baslik).1 == AnalyzeArticle(m2, baslik).1
  {
  }

  /** The article yields a record: it passes the filter, and its source object
      and source name are not None (each would raise inside the per-article
      `try` and skip the article). */
  predicate LegacyEmits(a: Article)
  {
    Backend.KeepArticle(a) && Backend.SourceName(a).Ok? && Backend.SourceName(a).value.Some?
  }

  function LegacyRecord(m: LegacyModels, a: Article, i: nat, cc: string, clock: nat -> string): Backend.Processed
    requires LegacyEmits(a)
  {
    var res := AnalyzeArticle(m, VStr(a.title.v));
    Backend.Processed(cc, Text.Prefix(a.title.v, 500), res.0, Text.Prefix(a.url.v, 2000), res.1,
                      Some(Text.Prefix(Backend.SourceName(a).value.value, 100)), res.2, clock(i))
  }

  /** The result of the defensive `process_articles`: never raises; each
      record carries the country code, a title of at most 500, a url of at
      most 2000 and a source of at most 100 characters, and the risk label
      of its score. */
  function LegacyProcessed(m: LegacyModels, articles: seq<Article>, cc: string, clock: nat -> string)
    : (r: seq<Backend.Processed>)
    ensures |r| <= |articles|
    ensures forall k :: 0 <= k < |r| ==>
              && r[k].ulke == cc
              && |r[k].baslik| <= 500 && |r[k].url| <= 2000
              && r[k].kaynak.Some? && |r[k].kaynak.value| <= 100
              && r[k].riskSeviyesi == Backend.CalculateRiskLevel(r[k].skor)
    decreases |articles|
  {
    if |articles| == 0 then []
    else
      var n := |articles| - 1;
      var prev := LegacyProcessed(m, articles[..n], cc, clock);
      if LegacyEmits(articles[n]) then prev + [LegacyRecord(m, articles[n], n, cc, clock)] else prev
  }

  /** The k-th record is built from the k-th article that yields one. */
  lemma {:induction false} LegacyRecordsAt(m: LegacyModels, articles: seq<Article>, cc: string, clock: nat -> string)
    ensures var out := LegacyProcessed(m, articles, cc, clock);
            var idx := Positions(articles, LegacyEmits);
            && |idx| == |out|
            && forall k :: 0 <= k < |idx| ==> out[k] == LegacyRecord(m, articles[idx[k]], idx[k], cc, clock)
    decreases |articles|
  {
    if |articles| > 0 {
      var n := |articles| - 1;
      var pre := articles[..n];
      LegacyRecordsAt(m, pre, cc, clock);
      var prev := LegacyProcessed(m, pre, cc, clock);
      var pidx := Positions(pre, LegacyEmits);
      forall k | 0 <= k < |pidx|
        ensures prev[k] == LegacyRecord(m, articles[pidx[k]], pidx[k], cc, clock)
      {
        assert pre[pidx[k]] == articles[pidx[k]];
      }
    }
  }

  /** The output is, in input order, one record per article that passes the
      filter and has a source name; `idx` lists their positions and covers
      all of them. */
  lemma LegacyOrigins(m: LegacyModels, articles: seq<Article>, cc: string, clock: nat -> string)
    returns (idx: seq<nat>)
    ensures var out := LegacyProcessed(m, articles, cc, clock);
            && |idx| == |out|
            && (forall k :: 0 <= k < |idx| ==>
                  && idx[k] < |articles|
                  && LegacyEmits(articles[idx[k]])
                  && out[k] == LegacyRecord(m, articles[idx[k]], idx[k], cc, clock))
            && (forall k1, k2 :: 0 <= k1 < k2 < |idx| ==> idx[k1] < idx[k2])
            && (forall i :: 0 <= i < |articles| && LegacyEmits(articles[i]) ==> i in idx)
  {
    idx := Positions(articles, LegacyEmits);
    LegacyRecordsAt(m, articles, cc, clock);
  }

  /** The defensive `process_articles`, the loop over the articles. */
  method ProcessArticles(m: LegacyModels, articles: seq<Article>, cc: string, clock: nat -> string)
    returns (processed: seq<Backend.Processed>)
    ensures processed == LegacyProcessed(m, articles, cc, clock)
  {
    processed := [];
    if articles == [] {
      return;
    }
    var i := 0;
    while i < |articles|
      invariant 0 <= i <= |articles|
      invariant processed == LegacyProcessed(m, articles[..i], cc, clock)
    {
      assert articles[..i + 1][..i] == articles[..i];
      var a := articles[i];
      var kaynak := Backend.SourceName(a);
      if kaynak.Ok? && Backend.KeepArticle(a) && kaynak.value.Some? {
        var res := AnalyzeArticle(m, VStr(a.title.v));
        processed := processed + [Backend.Processed(
          cc, Text.Prefix(a.title.v, 500), res.0, Text.Prefix(a.url.v, 2000), res.1,
          Some(Text.Prefix(kaynak.value.value, 100)), res.2, clock(i))];
      }
      i := i + 1;
    }
    assert articles[..i] == articles;
  }

  /** `"KRİTİK" in risk_seviyesi` */
  predicate IsCritical(p: Backend.Processed)
  {
    Text.Contains(p.riskSeviyesi, "KRİTİK")
  }

  /** Of the four risk labels only the critical one contains "KRİTİK". */
  lemma CriticalLabelIff(score: real)
    ensures Text.Contains(Backend.CalculateRiskLevel(score), "KRİTİK") <==> score <= -0.7
  {
    var lbl := Backend.CalculateRiskLevel(score);
    if score <= -0.7 {
      assert lbl[1..] == "KRİTİK";
      assert Text.StartsWith(lbl[1..], "KRİTİK");
    } else {
      assert forall i :: 0 <= i < |lbl| ==> lbl[i] != 'K';
      Text.NoFirstCharNotContained(lbl, "KRİTİK");
    }
  }

  function CountCritical(ps: seq<Backend.Processed>): (c: nat)
    ensures c <= |ps|
  {
    if ps == [] then 0
    else CountCritical(ps[..|ps| - 1]) + (if IsCritical(ps[|ps| - 1]) then 1 else 0)
  }

  /** The records of one cycle, country by country in the order of the fetched dict. */
  function CycleRecords(m: LegacyModels, allNews: seq<(string, seq<Article>)>, clock: string -> nat -> string)
    : (r: seq<Backend.Processed>)
    ensures forall k :: 0 <= k < |r| ==> r[k].riskSeviyesi == Backend.CalculateRiskLevel(r[k].skor)
    decreases |allNews|
  {
    if allNews == [] then []
    else
      var n := |allNews| - 1;
      CycleRecords(m, allNews[..n], clock)
      + LegacyProcessed(m, allNews[n].1, allNews[n].0, clock(allNews[n].0))
  }

  /** The records of a country as the dicts handed to `insert_news`. */
  function ToInputs(ps: seq<Backend.Processed>): (ns: seq<NR.NewsInput>)
    ensures |ns| == |ps| && forall i :: 0 <= i < |ps| ==> ns[i] == Backend.ToInput(ps[i])
  {
    seq(|ps|, i requires 0 <= i < |ps| => Backend.ToInput(ps[i]))
  }

  datatype CycleOutcome = CycleOutcome(store: NR.Store, totalProcessed: nat, criticalCount: nat)

  /** One pass of the `main_loop` body over the fetched articles: the table
      state, `total_processed` and `critical_count` after the countries so far. */
  function Cycle(st: NR.Store, created: bool, m: LegacyModels, allNews: seq<(string, seq<Article>)>,
                 clock: string -> nat -> string, now: string): CycleOutcome
    decreases |allNews|
  {
    if allNews == [] then CycleOutcome(st, 0, 0)
    else
      var n := |allNews| - 1;
      var prev := Cycle(st, created, m, allNews[..n], clock, now);
      var recs := LegacyProcessed(m, allNews[n].1, allNews[n].0, clock(allNews[n].0));
      var ins := LegacyInsert(prev.store, created, ToInputs(recs), now);
      CycleOutcome(ins.0, prev.totalProcessed + ins.1, prev.criticalCount + CountCritical(recs))
  }

  /** The accounting of a cycle: the table grows by exactly `totalProcessed`
      rows and keeps every earlier row; `criticalCount` counts every processed
      record labelled critical, whether or not its insert was rejected, so it
      does not depend on the table at all. */
  lemma {:induction false} CycleAccounting(st: NR.Store, created: bool, m: LegacyModels,
                                           allNews: seq<(string, seq<Article>)>,
                                           clock: string -> nat -> string, now: string)
    ensures var o := Cycle(st, created, m, allNews, clock, now);
            && |o.store.rows| == |st.rows| + o.totalProcessed
            && o.store.rows[..|st.rows|] == st.rows
            && o.criticalCount == CountCritical(CycleRecords(m, allNews, clock))
            && o.totalProcessed <= |CycleRecords(m, allNews, clock)|
            && (NR.StoreValid(st) ==> NR.StoreValid(o.store))
    decreases |allNews|
  {
    if allNews != [] {
      var n := |allNews| - 1;
      CycleAccounting(st, created, m, allNews[..n], clock, now);
      var prev := Cycle(st, created, m, allNews[..n], clock, now);
      var recs := LegacyProcessed(m, allNews[n].1, allNews[n].0, clock(allNews[n].0));
      var ins := LegacyInsert(prev.store, created, ToInputs(recs), now);
      CountCriticalAppend(CycleRecords(m, allNews[..n], clock), recs);
      assert ins.0.rows[..|st.rows|] == ins.0.rows[..|prev.store.rows|][..|st.rows|];
    }
  }

  lemma {:induction false} CountCriticalAppend(a: seq<Backend.Processed>, b: seq<Backend.Processed>)
    ensures CountCritical(a + b) == CountCritical(a) + CountCritical(b)
    decreases |b|
  {
    if b != [] {
      assert (a + b)[..|a + b| - 1] == a + b[..|b| - 1];
      CountCriticalAppend(a, b[..|b| - 1]);
    } else {
      assert a + b == a;
    }
  }

  /** The number of records whose score is at most the critical threshold. */
  function CountLowScores(ps: seq<Backend.Processed>): nat
  {
    if ps == [] then 0
    else CountLowScores(ps[..|ps| - 1]) + (if ps[|ps| - 1].skor <= AppConfig.CRITICAL_THRESHOLD then 1 else 0)
  }

  /** Counting records labelled critical is counting records whose score is at
      most the critical threshold. */
  lemma {:induction false} CriticalMeansScore(ps: seq<Backend.Processed>)
    requires forall k :: 0 <= k < |ps| ==> ps[k].riskSeviyesi == Backend.CalculateRiskLevel(ps[k].skor)
    ensures CountCritical(ps) == CountLowScores(ps)
  {
    if ps != [] {
      var n := |ps| - 1;
      assert forall k :: 0 <= k < n ==> ps[..n][k] == ps[k];
      CriticalMeansScore(ps[..n]);
      CriticalLabelIff(ps[n].skor);
    }
  }

  /** The inner loop of a cycle: counts the records labelled critical. */
  method CountCriticalRecords(processed: seq<Backend.Processed>) returns (count: nat)
    ensures count == CountCritical(processed)
  {
    count := 0;
    var j := 0;
    while j < |processed|
      invariant 0 <= j <= |processed|
      invariant count == CountCritical(processed[..j])
    {
      assert processed[..j + 1][..j] == processed[..j];
      if IsCritical(processed[j]) {
        count := count + 1;
      }
      j := j + 1;
    }
    assert processed[..j] == processed;
  }

  /** The critical count of a cycle is the number of records processed in it
      whose score is at most the critical threshold. */
  lemma CycleCriticalCount(st: NR.Store, created: bool, m: LegacyModels, allNews: seq<(string, seq<Article>)>,
                           clock: string -> nat -> string, now: string)
    ensures Cycle(st, created, m, allNews, clock, now).criticalCount
            == CountLowScores(CycleRecords(m, allNews, clock))
  {
    CycleAccounting(st, created, m, allNews, clock, now);
    CriticalMeansScore(CycleRecords(m, allNews, clock));
  }

  lemma CycleUnfold(st: NR.Store, created: bool, m: LegacyModels, allNews: seq<(string, seq<Article>)>,
                    clock: string -> nat -> string, now: string, c: nat)
    requires c < |allNews|
    ensures var prev := Cycle(st, created, m, allNews[..c], clock, now);
            var recs := LegacyProcessed(m, allNews[c].1, allNews[c].0, clock(allNews[c].0));
            var ins := LegacyInsert(prev.store, created, ToInputs(recs), now);
            Cycle(st, created, m, allNews[..c + 1], clock, now)
            == CycleOutcome(ins.0, prev.totalProcessed + ins.1, prev.criticalCount + CountCritical(recs))
  {
    assert allNews[..c + 1][..c] == allNews[..c];
  }

  /** The body of the cycle for one country: process its articles, store
      them when there are any, and count the critical ones. */
  method ProcessCountry(d: LegacyDatabase, m: LegacyModels, countryCode: string, articles: seq<Article>,
                        clock: nat -> string, now: string)
    returns (count: nat, critical: nat)
    requires d.db.Valid()
    modifies d.db
    ensures d.db.Valid() && d.db.created == old(d.db.created)
    ensures var recs := LegacyProcessed(m, articles, countryCode, clock);
            && (d.db.Snapshot(), count) == LegacyInsert(old(d.db.Snapshot()), old(d.db.created), ToInputs(recs), now)
            && critical == CountCritical(recs)
  {
    var processed := ProcessArticles(m, articles, countryCode, clock);
    count, critical := 0, 0;
    if processed != [] {
      count := d.InsertNews(ToInputs(processed), now);
      critical := CountCriticalRecords(processed);
    }
  }

  /** One cycle of the main loop, as the loop over the fetched countries. */
  method RunCycle(d: LegacyDatabase, m: LegacyModels, allNews: seq<(string, seq<Article>)>,
                  clock: string -> nat -> string, now: string)
    returns (totalProcessed: nat, criticalCount: nat)
    requires d.db.Valid()
    modifies d.db
    ensures d.db.Valid() && d.db.created == old(d.db.created)
    ensures CycleOutcome(d.db.Snapshot(), totalProcessed, criticalCount)
            == Cycle(old(d.db.Snapshot()), old(d.db.created), m, allNews, clock, now)
  {
    ghost var start := d.db.Snapshot();
    ghost var created := d.db.created;
    totalProcessed, criticalCount := 0, 0;
    var c := 0;
    assert allNews[..0] == [];
    while c < |allNews|
      invariant 0 <= c <= |allNews|
      invariant d.db.Valid() && d.db.created == created
      invariant d.db.Snapshot() == Cycle(start, created, m, allNews[..c], clock, now).store
      invariant totalProcessed == Cycle(start, created, m, allNews[..c], clock, now).totalProcessed
      invariant criticalCount == Cycle(start, created, m, allNews[..c], clock, now).criticalCount
    {
      var count, critical := ProcessCountry(d, m, allNews[c].0, allNews[c].1, clock(allNews[c].0), now);
      CycleUnfold(start, created, m, allNews, clock, now, c);
      totalProcessed := totalProcessed + count;
      criticalCount := criticalCount + critical;
      c := c + 1;
    }
    assert allNews[..c] == allNews;
  }

  /** `NewsCollector.has_api_key` */
  function HasApiKey(apiKey: string): (b: bool)
    ensures b <==> apiKey != "" && apiKey != AppConfig.NEWS_KEY_PLACEHOLDER
  {
    apiKey != "" && apiKey != AppConfig.NEWS_KEY_PLACEHOLDER
  }

  /** The collector has a key exactly when the configuration's key accessor
      does not withhold it. */
  lemma HasApiKeyMatchesConfig(c: AppConfig.Config)
    ensures HasApiKey(c.newsApiKey) <==> AppConfig.GetNewsApiKey(c) != ""
  {
  }

  /** The guard of `fetch_news`: without a key nothing is requested and []
      is returned; `response` stands for the articles the request yields
      ([] on any request failure). */
  function FetchNews(apiKey: string, response: seq<Article>): (r: seq<Article>)
    ensures !HasApiKey(apiKey) ==> r == []
    ensures HasApiKey(apiKey) ==> r == response
  {
    if !HasApiKey(apiKey) then [] else response
  }
}

=== FILE: real_sums.dfy ===
/** Sums, extremes and means of finite sequences of reals, the arithmetic
    behind the averages and deviations the pipeline reports. */
module RealSums {

  /** `sum(s)`, adding from the left. */
  function Sum(s: seq<real>): real
  {
    if s == [] then 0.0 else Sum(s[..|s| - 1]) + s[|s| - 1]
  }

  function MinOf(s: seq<real>): (m: real)
    requires |s| > 0
    ensures m in s && forall x :: x in s ==> m <= x
  {
    if |s| == 1 then s[0]
    else
      var n := |s| - 1;
      assert s == s[..n] + [s[n]];
      var p := MinOf(s[..n]);
      if s[n] < p then s[n] else p
  }

  function MaxOf(s: seq<real>): (m: real)
    requires |s| > 0
    ensures m in s && forall x :: x in s ==> x <= m
  {
    if |s| == 1 then s[0]
    else
      var n := |s| - 1;
      assert s == s[..n] + [s[n]];
      var p := MaxOf(s[..n]);
      if s[n] > p then s[n] else p
  }

  /** n copies of x added up, that is n * x without a product. */
  function Times(n: nat, x: real): real
  {
    if n == 0 then 0.0 else Times(n - 1, x) + x
  }

  lemma {:induction false} TimesIsProduct(n: nat, x: real)
    ensures Times(n, x) == (n as real) * x
  {
    if n > 0 {
      TimesIsProduct(n - 1, x);
      assert (n as real) * x == ((n - 1) as real) * x + x;
    }
  }

  lemma {:induction false} TimesLe(n: nat, x: real, y: real)
    requires x <= y
    ensures Times(n, x) <= Times(n, y)
  {
    if n > 0 {
      TimesLe(n - 1, x, y);
    }
  }

  /** A sum of n values is at least n times their minimum. */
  lemma {:induction false} SumAtLeast(s: seq<real>)
    requires |s| > 0
    ensures Times(|s|, MinOf(s)) <= Sum(s)
  {
    var n := |s| - 1;
    if n > 0 {
      SumAtLeast(s[..n]);
      TimesLe(n, MinOf(s), MinOf(s[..n]));
    } else {
      assert s[..0] == [];
    }
  }

  /** A sum of n values is at most n times their maximum. */
  lemma {:induction false} SumAtMost(s: seq<real>)
    requires |s| > 0
    ensures Sum(s) <= Times(|s|, MaxOf(s))
  {
    var n := |s| - 1;
    if n > 0 {
      SumAtMost(s[..n]);
      TimesLe(n, MaxOf(s[..n]), MaxOf(s));
    } else {
      assert s[..0] == [];
    }
  }

  lemma DivLower(t: real, k: real, lo: real)
    requires k > 0.0 && k * lo <= t
    ensures lo <= t / k
  {
    assert t / k - lo == (t - k * lo) / k;
  }

  lemma DivUpper(t: real, k: real, hi: real)
    requires k > 0.0 && t <= k * hi
    ensures t / k <= hi
  {
    assert hi - t / k == (k * hi - t) / k;
  }

  /** A total between n times lo and n times hi has its n-th part between lo and hi. */
  lemma MeanWithin(t: real, n: nat, lo: real, hi: real)
    requires n > 0
    requires Times(n, lo) <= t <= Times(n, hi)
    ensures lo <= t / (n as real) <= hi
  {
    TimesIsProduct(n, lo);
    TimesIsProduct(n, hi);
    DivLower(t, n as real, lo);
    DivUpper(t, n as real, hi);
  }

  /** The mean of a non-empty sequence lies between its minimum and maximum. */
  lemma MeanBetween(s: seq<real>)
    requires |s| > 0
    ensures MinOf(s) <= Sum(s) / (|s| as real) <= MaxOf(s)
  {
    SumAtLeast(s);
    SumAtMost(s);
    MeanWithin(Sum(s), |s|, MinOf(s), MaxOf(s));
  }

  /** The arithmetic mean of a non-empty sequence. */
  function Mean(s: seq<real>): real
    requires |s| > 0
  {
    Sum(s) / (|s| as real)
  }

  function Square(x: real): real
  {
    x * x
  }

  /** The squared deviation of each value from c. */
  function SquaredDevs(s: seq<real>, c: real): (d: seq<real>)
    ensures |d| == |s|
  {
    seq(|s|, i requires 0 <= i < |s| => Square(s[i] - c))
  }

  /** The sample variance (divisor n - 1), defined from two values on. */
  function SampleVariance(s: seq<real>): real
    requires |s| >= 2
  {
    Sum(SquaredDevs(s, Mean(s))) / ((|s| - 1) as real)
  }

  lemma {:induction false} SumOfConstant(s: seq<real>, c: real)
    requires forall i :: 0 <= i < |s| ==> s[i] == c
    ensures Sum(s) == Times(|s|, c)
  {
    if s != [] {
      SumOfConstant(s[..|s| - 1], c);
    }
  }

  lemma {:induction false} SumNonNegative(s: seq<real>)
    requires forall i :: 0 <= i < |s| ==> 0.0 <= s[i]
    ensures 0.0 <= Sum(s)
  {
    if s != [] {
      SumNonNegative(s[..|s| - 1]);
    }
  }

  lemma SquareNonNegative(x: real)
    ensures 0.0 <= Square(x)
  {
    if x < 0.0 {
      assert x * x == (-x) * (-x);
    }
  }

  /** The mean of n copies of c is c. */
  lemma MeanOfConstant(s: seq<real>, c: real)
    requires |s| > 0
    requires forall i :: 0 <= i < |s| ==> s[i] == c
    ensures Mean(s) == c
  {
    SumOfConstant(s, c);
    TimesIsProduct(|s|, c);
    var k := |s| as real;
    assert Sum(s) == k * c;
    assert (k * c) / k == c;
  }

  /** The sample variance is never negative. */
  lemma VarianceNonNegative(s: seq<real>)
    requires |s| >= 2
    ensures 0.0 <= SampleVariance(s)
  {
    var d := SquaredDevs(s, Mean(s));
    forall i | 0 <= i < |d|
      ensures 0.0 <= d[i]
    {
      SquareNonNegative(s[i] - Mean(s));
    }
    SumNonNegative(d);
    var k := (|s| - 1) as real;
    assert Sum(d) / k == Sum(d) * (1.0 / k);
  }

  /** Equal values have zero sample variance. */
  lemma ConstantVarianceZero(s: seq<real>)
    requires |s| >= 2
    requires forall i :: 0 <= i < |s| ==> s[i] == s[0]
    ensures SampleVariance(s) == 0.0
  {
    var d := SquaredDevs(s, Mean(s));
    MeanOfConstant(s, s[0]);
    SumOfConstant(d, 0.0);
    TimesIsProduct(|d|, 0.0);
  }
}

=== FILE: refactored_pipeline.dfy ===
/** main_refactored.py: the layered pipeline. Two adapters turn the
    transformer pipelines into the analyzer's capabilities, the fetcher
    normalises the articles of the news search service, and `main` runs
    fetch, analysis and storage once. */
module RefactoredPipeline {
  import opened Common
  import Text
  import Settings
  import AS = AnalyzerService
  import NR = NewsRepository

  const MAX_MODEL_CHARS: nat := 512

  /** The sentiment model's answer for a title: the model sees the first 512
      characters; `None` when the call raises, as `len` does for a value
      that is not text. */
  function SentimentOf(pipe: string -> Option<SentimentOutput>, text: Value): Option<SentimentOutput>
  {
    if text.VStr? then pipe(Text.Prefix(text.s, MAX_MODEL_CHARS)) else None
  }

  /** `DistilBERTSentimentAnalyzer.analyze`: the confidence with the sign of
      the label, or 0.0 when the model call fails. */
  function Analyze(pipe: string -> Option<SentimentOutput>, text: Value): (score: real)
    ensures SentimentOf(pipe, text).None? ==> score == 0.0
    ensures SentimentOf(pipe, text).Some? ==>
              var o := SentimentOf(pipe, text).value;
              && (o.polarity == "POSITIVE" ==> score == o.score)
              && (o.polarity != "POSITIVE" ==> score == -o.score)
              && (0.0 <= o.score <= 1.0 ==> -1.0 <= score <= 1.0)
  {
    match SentimentOf(pipe, text)
    case None => 0.0
    case Some(o) => (if o.polarity == "POSITIVE" then 1.0 else -1.0) * o.score
  }

  /** The classifier's ranked labels for a title, from its first 512
      characters; `None` when the call raises, as slicing does for a value
      that is not text. */
  function LabelsOf(pipe: string -> Option<seq<string>>, text: Value): Option<seq<string>>
  {
    if text.VStr? then pipe(Text.Prefix(text.s, MAX_MODEL_CHARS)) else None
  }

  /** `ZeroShotCategoryClassifier.classify`: the top-ranked label, or
      "Unknown" when the call fails or ranks nothing. */
  function Classify(pipe: string -> Option<seq<string>>, text: Value): (top: string)
    ensures LabelsOf(pipe, text).Some? && LabelsOf(pipe, text).value != [] ==>
              top == LabelsOf(pipe, text).value[0]
    ensures LabelsOf(pipe, text).None? || LabelsOf(pipe, text).value == [] ==> top == "Unknown"
  {
    match LabelsOf(pipe, text)
    case None => "Unknown"
    case Some(labels) => if labels == [] then "Unknown" else labels[0]
  }

  /** A title of at most 512 characters reaches both models whole. */
  lemma ShortTitlesReachModelsWhole(sp: string -> Option<SentimentOutput>,
                                    cp: string -> Option<seq<string>>, s: string)
    requires |s| <= MAX_MODEL_CHARS
    ensures SentimentOf(sp, VStr(s)) == sp(s)
    ensures LabelsOf(cp, VStr(s)) == cp(s)
  {
  }

  /** Both adapters catch every failure, so as capabilities of the analyzer
      service they never raise. */
  function Capabilities(sp: string -> Option<SentimentOutput>, cp: string -> Option<seq<string>>,
                        thresholds: Settings.RiskThresholds): (a: AS.Analyzer)
    ensures forall v :: a.sentiment(v) == Ok(Analyze(sp, v)) && a.classifier(v) == Ok(Classify(cp, v))
    ensures a.thresholds == thresholds
  {
    AS.Analyzer((v: Value) => Ok(Analyze(sp, v)), (v: Value) => Ok(Classify(cp, v)), thresholds)
  }

  /** With these adapters the analyzer fails on a title only when it is not
      text (the log line slices it). */
  lemma AdapterFailureOnlyForNonText(sp: string -> Option<SentimentOutput>,
                                     cp: string -> Option<seq<string>>,
                                     thresholds: Settings.RiskThresholds, baslik: Value)
    ensures AS.Failure(Capabilities(sp, cp, thresholds), baslik).None? <==> baslik.VStr?
  {
  }

  // ---------------------------------------------------------------------
  // NewsAPIFetcher.fetch_news
  // ---------------------------------------------------------------------

  const COUNTRY_MAPPING: map<string, string> :=
    map["us" := "us", "kr" := "kr", "fr" := "fr", "es" := "es", "it" := "it", "gr" := "gr"]

  /** `country_mapping.get(country, country)` */
  function CountryCode(country: string): string
  {
    if country in COUNTRY_MAPPING then COUNTRY_MAPPING[country] else country
  }

  /** The mapping sends each of its codes to itself, so every country code,
      listed or not, reaches the request unchanged. */
  lemma CountryCodePassesThrough(country: string)
    ensures CountryCode(country) == country
  {
  }

  /** `article.get(key, default)` for a text field. */
  function TextOr(f: Field<string>, default: string): (v: Value)
    ensures f.Absent? ==> v == VStr(default)
    ensures f.Null? ==> v == VNone
    ensures f.Val? ==> v == VStr(f.v)
  {
    match f
    case Absent => VStr(default)
    case Null => VNone
    case Val(s) => VStr(s)
  }

  /** The record built for one article, or `None` when building it raises:
      a `source` or `publishedAt` that is None has no `get` / `split`. */
  function NormalizeArticle(country: string, a: Article): Option<Dict>
  {
    if a.source.Null? || a.publishedAt.Null? then None
    else
      var kaynak := if a.source.Absent? then VStr("NewsAPI") else TextOr(a.source.v.name, "NewsAPI");
      var tarih := if a.publishedAt.Absent? then "" else Text.BeforeFirst(a.publishedAt.v, 'T');
      Some(map[
        "ulke" := VStr(country),
        "baslik" := TextOr(a.title, ""),
        "url" := TextOr(a.url, ""),
        "kaynak" := kaynak,
        "tarih" := VStr(tarih)])
  }

  /** Every normalised record carries the requested country and exactly the
      five keys; `tarih` is the part of `publishedAt` before the first 'T'
      (all of it without a 'T', "" when it is missing). */
  lemma NormalizedRecord(country: string, a: Article)
    requires NormalizeArticle(country, a).Some?
    ensures var d := NormalizeArticle(country, a).value;
            && d.Keys == {"ulke", "baslik", "url", "kaynak", "tarih"}
            && d["ulke"] == VStr(country)
            && d["tarih"].VStr?
            && (a.publishedAt.Absent? ==> d["tarih"] == VStr(""))
            && (a.publishedAt.Val? ==>
                  && Text.StartsWith(a.publishedAt.v, d["tarih"].s)
                  && (forall i :: 0 <= i < |d["tarih"].s| ==> d["tarih"].s[i] != 'T')
                  && (|d["tarih"].s| < |a.publishedAt.v| ==> a.publishedAt.v[|d["tarih"].s|] == 'T'))
  {
  }

  /** A date with no 'T' is kept whole. */
  lemma DateWithoutTKeptWhole(p: string)
    requires forall i :: 0 <= i < |p| ==> p[i] != 'T'
    ensures Text.BeforeFirst(p, 'T') == p
  {
    var r := Text.BeforeFirst(p, 'T');
    assert p[..|r|] == r;
  }

  /** What `fetch_news` returns for a response: `None` is a failed request
      or unreadable body; the `articles` key may be missing or None. */
  function FetchResult(country: string, response: Option<Field<seq<Article>>>): seq<Dict>
  {
    if response.None? || response.value.Null? then []
    else if response.value.Absent? then []
    else
      var arts := response.value.v;
      if exists i :: 0 <= i < |arts| && NormalizeArticle(country, arts[i]).None? then []
      else seq(|arts|, i requires 0 <= i < |arts| => NormalizeArticle(country, arts[i]).value)
  }

  /** `fetch_news`: one record per article, in order, each for the requested
      country; any failure, including one raised by a single article, gives []. */
  method FetchNews(country: string, response: Option<Field<seq<Article>>>)
    returns (normalized: seq<Dict>)
    ensures normalized == FetchResult(country, response)
    ensures response.Some? && response.value.Val?
            && (forall i :: 0 <= i < |response.value.v| ==> NormalizeArticle(country, response.value.v[i]).Some?)
            ==> |normalized| == |response.value.v|
    ensures forall i :: 0 <= i < |normalized| ==> "ulke" in normalized[i] && normalized[i]["ulke"] == VStr(country)
  {
    if response.None? || !response.value.Val? {
      return [];
    }
    var arts := response.value.v;
    normalized := [];
    var i := 0;
    while i < |arts|
      invariant 0 <= i <= |arts|
      invariant forall j :: 0 <= j < i ==> NormalizeArticle(country, arts[j]).Some?
      invariant |normalized| == i
      invariant forall j :: 0 <= j < i ==> normalized[j] == NormalizeArticle(country, arts[j]).value
      invariant forall j :: 0 <= j < i ==> "ulke" in normalized[j] && normalized[j]["ulke"] == VStr(country)
    {
      var rec := NormalizeArticle(country, arts[i]);
      if rec.None? {
        return [];
      }
      NormalizedRecord(country, arts[i]);
      normalized := normalized + [rec.value];
      i := i + 1;
    }
  }

  // ---------------------------------------------------------------------
  // main
  // ---------------------------------------------------------------------

  /** The records fetched for the given countries, in order. */
  function FetchAll(codes: seq<(string, string)>, responses: string -> Option<Field<seq<Article>>>): seq<Dict>
  {
    if codes == [] then []
    else
      var n := |codes| - 1;
      FetchAll(codes[..n], responses) + FetchResult(codes[n].0, responses(codes[n].0))
  }

  const TEXT_COLUMNS: set<string> := {"ulke", "tarih", "baslik", "url", "kategori", "kaynak", "risk_seviyesi"}

  /** The dict holds text or None in its text columns and a number or None
      as its score. */
  predicate Typed(d: Dict)
  {
    && (forall k :: k in d && k in TEXT_COLUMNS ==> !d[k].VReal?)
    && ("skor" in d ==> !d["skor"].VStr?)
  }

  function TextSlot(d: Dict, k: string): Field<string>
  {
    if k !in d then Absent
    else match d[k]
      case VStr(s) => Val(s)
      case _ => Null
  }

  /** The dict as `add_news` reads it, one slot per column. */
  function ToInput(d: Dict): NR.NewsInput
  {
    NR.NewsInput(
      TextSlot(d, "ulke"), TextSlot(d, "tarih"), TextSlot(d, "baslik"),
      if "skor" !in d then Absent else if d["skor"].VReal? then Val(d["skor"].r) else Null,
      TextSlot(d, "url"), TextSlot(d, "kategori"), TextSlot(d, "kaynak"),
      TextSlot(d, "risk_seviyesi"))
  }

  function ToInputs(ds: seq<Dict>): (r: seq<NR.NewsInput>)
    ensures |r| == |ds|
  {
    seq(|ds|, i requires 0 <= i < |ds| => ToInput(ds[i]))
  }

  /** The text columns of an analysed record hold text, so the slot reading
      of `add_news` loses nothing: a text value reaches its column. */
  lemma AnalyzedRecordTyped(a: AS.Analyzer, d: Dict, now: string)
    requires Typed(d)
    ensures Typed(AS.AnalyzeNews(a, d, now))
  {
  }

  /** Every fetched record has a title slot and text or None in its columns. */
  lemma {:induction false} FetchedRecordsTyped(codes: seq<(string, string)>, responses: string -> Option<Field<seq<Article>>>)
    ensures forall i :: 0 <= i < |FetchAll(codes, responses)| ==>
              Typed(FetchAll(codes, responses)[i]) && "baslik" in FetchAll(codes, responses)[i]
  {
    if codes != [] {
      var n := |codes| - 1;
      FetchedRecordsTyped(codes[..n], responses);
      var c := codes[n].0;
      var batch := FetchResult(c, responses(c));
      forall i | 0 <= i < |batch|
        ensures Typed(batch[i]) && "baslik" in batch[i]
      {
        var arts := responses(c).value.v;
        NormalizedRecord(c, arts[i]);
      }
    }
  }

  /** The fetch loop of `main`: every configured country in order, each
      batch appended to the records gathered so far. */
  method FetchCountries(codes: seq<(string, string)>, responses: string -> Option<Field<seq<Article>>>)
    returns (allRawNews: seq<Dict>)
    ensures allRawNews == FetchAll(codes, responses)
    ensures forall i :: 0 <= i < |allRawNews| ==> Typed(allRawNews[i]) && "baslik" in allRawNews[i]
  {
    allRawNews := [];
    var i := 0;
    while i < |codes|
      invariant 0 <= i <= |codes|
      invariant allRawNews == FetchAll(codes[..i], responses)
    {
      var rawNews := FetchNews(codes[i].0, responses(codes[i].0));
      assert codes[..i + 1][..i] == codes[..i];
      allRawNews := allRawNews + rawNews;
      i := i + 1;
    }
    assert codes[..|codes|] == codes;
    FetchedRecordsTyped(codes, responses);
  }

  /** `main` over given inputs: whether the API keys are valid is read from
      the settings, `modelsLoaded` says whether both transformer pipelines
      could be built, `responses` gives the service's answer per country,
      `clock(i)` the analysis time of the i-th record and `now` the time of
      the insert. It returns False before touching the rows when a key is
      missing, the models cannot be loaded or nothing was fetched; otherwise
      every fetched record is analysed and the batch is stored. */
  method RunMain(settings: Settings.Settings, repo: NR.SQLiteNewsRepository, modelsLoaded: bool,
              sp: string -> Option<SentimentOutput>, cp: string -> Option<seq<string>>,
              responses: string -> Option<Field<seq<Article>>>, clock: nat -> string, now: string)
    returns (ok: bool)
    requires repo.db.Valid()
    modifies repo.db
    ensures repo.db.Valid()
    ensures ok <==> settings.ValidateAll() && modelsLoaded && FetchAll(settings.countryCodes, responses) != []
    ensures !ok ==> repo.db.Snapshot() == old(repo.db.Snapshot())
    ensures ok ==>
              var raw := FetchAll(settings.countryCodes, responses);
              var a := Capabilities(sp, cp, settings.riskThresholds);
              var analyzed := seq(|raw|, i requires 0 <= i < |raw| => AS.AnalyzeNews(a, raw[i], clock(i)));
              repo.db.Snapshot() == NR.RunBatch(old(repo.db.Snapshot()), NR.BindAll(ToInputs(analyzed)), now).store
  {
    if !settings.ValidateAll() {
      return false;
    }
    var initialised := repo.InitDatabase();
    if !initialised {
      return false;
    }
    if !modelsLoaded {
      return false;
    }
    var a := Capabilities(sp, cp, settings.riskThresholds);
    var allRawNews := FetchCountries(settings.countryCodes, responses);
    if allRawNews == [] {
      return false;
    }
    var analyzed, _ := AS.AnalyzeBatch(a, allRawNews, clock);
    assert analyzed == seq(|allRawNews|, i requires 0 <= i < |allRawNews| => AS.AnalyzeNews(a, allRawNews[i], clock(i)));
    var inputs := ToInputs(analyzed);
    var inserted := repo.AddNews(inputs, now);
    ok := true;
  }

  /** The country report at the end of `main` cannot raise: every analysed
      record that had a title carries a numeric score. */
  lemma ReportDoesNotRaise(a: AS.Analyzer, raw: seq<Dict>, clock: nat -> string, country: string)
    requires forall i :: 0 <= i < |raw| ==> "baslik" in raw[i]
    ensures var analyzed := seq(|raw|, i requires 0 <= i < |raw| => AS.AnalyzeNews(a, raw[i], clock(i)));
            AS.GetCountrySentiment(a, analyzed, country).Ok?
  {
    var analyzed := seq(|raw|, i requires 0 <= i < |raw| => AS.AnalyzeNews(a, raw[i], clock(i)));
    forall d: Dict | d in AS.CountryNews(analyzed, country)
      ensures AS.ScoreOf(d).Ok?
    {
      var i :| 0 <= i < |analyzed| && analyzed[i] == d;
      assert d == AS.AnalyzeNews(a, raw[i], clock(i));
      if AS.Failure(a, raw[i]["baslik"]).None? {
        assert d["skor"].VReal?;
      } else {
        assert d["skor"] == VReal(0.0);
      }
    }
  }
}

=== FILE: repository.dfy ===
/** src/database/repository.py: the `haberler` table with its NOT NULL and
    UNIQUE constraints, the per-record batch insert, and the ordered reads.
    The table itself (`NewsTable`) is the database file that all three
    generations of the store write to. */
module NewsRepository {
  import opened Common
  import Text

  /** The values bound to the eight placeholders of the INSERT statement;
      None is SQL NULL. */
  datatype InsertParams = InsertParams(
    ulke: Option<string>,
    tarih: Option<string>,
    baslik: Option<string>,
    skor: Option<real>,
    url: Option<string>,
    kategori: Option<string>,
    kaynak: Option<string>,
    riskSeviyesi: Option<string>)

  /** A news record handed to the store: one dict slot per column. */
  datatype NewsInput = NewsInput(
    ulke: Field<string>,
    tarih: Field<string>,
    baslik: Field<string>,
    skor: Field<real>,
    url: Field<string>,
    kategori: Field<string>,
    kaynak: Field<string>,
    riskSeviyesi: Field<string>)

  /** A stored row; the NOT NULL columns have no NULL case. */
  datatype Row = Row(
    id: nat,
    ulke: string,
    tarih: string,
    baslik: string,
    skor: real,
    url: string,
    kategori: Option<string>,
    kaynak: Option<string>,
    riskSeviyesi: Option<string>,
    createdAt: string)

  /** Errors the store lets escape to its caller. */
  datatype StoreError =
    | NoSuchTable          // sqlite3.OperationalError: the table was never created
    | KeyError(key: string) // a record lacks a key the statement subscripts

  /** The NOT NULL columns ulke, tarih, baslik, skor and url all have a value. */
  predicate NotNullOk(p: InsertParams)
  {
    p.ulke.Some? && p.tarih.Some? && p.baslik.Some? && p.skor.Some? && p.url.Some?
  }

  predicate UrlStored(rows: seq<Row>, u: string)
  {
    exists i :: 0 <= i < |rows| && rows[i].url == u
  }

  predicate PairStored(rows: seq<Row>, b: string, u: string)
  {
    exists i :: 0 <= i < |rows| && rows[i].baslik == b && rows[i].url == u
  }

  /** The schema admits a row for p next to `rows`: every NOT NULL column has
      a value, `url` is UNIQUE, and so is the pair (baslik, url). */
  predicate Admits(rows: seq<Row>, p: InsertParams)
  {
    NotNullOk(p) && !UrlStored(rows, p.url.value) && !PairStored(rows, p.baslik.value, p.url.value)
  }

  /** Deduplication is by url alone: the pair constraint never rejects a
      record the url constraint admits. */
  lemma AdmitsByUrl(rows: seq<Row>, p: InsertParams)
    ensures Admits(rows, p) <==> NotNullOk(p) && !UrlStored(rows, p.url.value)
  {
    if NotNullOk(p) && PairStored(rows, p.baslik.value, p.url.value) {
      var i :| 0 <= i < |rows| && rows[i].baslik == p.baslik.value && rows[i].url == p.url.value;
      assert UrlStored(rows, p.url.value);
    }
  }

  function MakeRow(id: nat, p: InsertParams, now: string): Row
    requires NotNullOk(p)
  {
    Row(id, p.ulke.value, p.tarih.value, p.baslik.value, p.skor.value, p.url.value,
        p.kategori, p.kaynak, p.riskSeviyesi, now)
  }

  /** The contents of the table: its rows and the next AUTOINCREMENT id. */
  datatype Store = Store(rows: seq<Row>, nextId: nat)

  /** The constraints every committed table state satisfies: urls are unique,
      ids increase in insertion order and stay below the next id. */
  ghost predicate StoreValid(st: Store)
  {
    && (forall i, j :: 0 <= i < j < |st.rows| ==> st.rows[i].url != st.rows[j].url)
    && (forall i, j :: 0 <= i < j < |st.rows| ==> st.rows[i].id < st.rows[j].id)
    && (forall i :: 0 <= i < |st.rows| ==> st.rows[i].id < st.nextId)
  }

  /** The state of a batch insert: the table, and the two counters of `add_news`. */
  datatype Tally = Tally(store: Store, inserted: nat, duplicates: nat)

  /** One INSERT inside the batch: a row is added when the constraints admit it,
      otherwise the IntegrityError is counted as a duplicate. */
  function Step(t: Tally, p: InsertParams, now: string): Tally
  {
    if Admits(t.store.rows, p) then
      Tally(Store(t.store.rows + [MakeRow(t.store.nextId, p, now)], t.store.nextId + 1),
            t.inserted + 1, t.duplicates)
    else
      Tally(t.store, t.inserted, t.duplicates + 1)
  }

  lemma UrlStoredAppend(rows: seq<Row>, r: Row, u: string)
    ensures UrlStored(rows + [r], u) <==> UrlStored(rows, u) || r.url == u
  {
    if UrlStored(rows + [r], u) {
      var i :| 0 <= i < |rows + [r]| && (rows + [r])[i].url == u;
      if i < |rows| { assert rows[i].url == u; }
    }
    if UrlStored(rows, u) {
      var i :| 0 <= i < |rows| && rows[i].url == u;
      assert (rows + [r])[i].url == u;
    }
    if r.url == u {
      assert (rows + [r])[|rows|].url == u;
    }
  }

  lemma StepKeepsValid(t: Tally, p: InsertParams, now: string)
    ensures StoreValid(t.store) ==> StoreValid(Step(t, p, now).store)
  {
    if StoreValid(t.store) && Admits(t.store.rows, p) {
      var rows := t.store.rows;
      var rows' := rows + [MakeRow(t.store.nextId, p, now)];
      assert !UrlStored(rows, p.url.value);
      assert forall i :: 0 <= i < |rows| ==> rows'[i] == rows[i];
    }
  }

  /** The batch semantics of `add_news`: the records are inserted one by one
      in order. Every record is counted once, as inserted or as a duplicate,
      and the table grows by exactly the inserted count. */
  function RunBatch(st: Store, ps: seq<InsertParams>, now: string): (t: Tally)
    ensures t.inserted + t.duplicates == |ps|
    ensures |t.store.rows| == |st.rows| + t.inserted
    ensures t.store.nextId == st.nextId + t.inserted
    decreases |ps|
  {
    if |ps| == 0 then Tally(st, 0, 0)
    else Step(RunBatch(st, ps[..|ps| - 1], now), ps[|ps| - 1], now)
  }

  /** A batch never changes a row already stored, and the constraints keep
      holding after it. */
  lemma {:induction false} RunBatchPreserves(st: Store, ps: seq<InsertParams>, now: string)
    ensures RunBatch(st, ps, now).store.rows[..|st.rows|] == st.rows
    ensures StoreValid(st) ==> StoreValid(RunBatch(st, ps, now).store)
    decreases |ps|
  {
    if |ps| > 0 {
      var prev := RunBatch(st, ps[..|ps| - 1], now);
      RunBatchPreserves(st, ps[..|ps| - 1], now);
      StepKeepsValid(prev, ps[|ps| - 1], now);
      var rows := RunBatch(st, ps, now).store.rows;
      assert rows[..|prev.store.rows|] == prev.store.rows;
      assert rows[..|st.rows|] == rows[..|prev.store.rows|][..|st.rows|];
    }
  }

  /** One more record at the end of a batch is one more INSERT. */
  lemma RunBatchAppend(st: Store, ps: seq<InsertParams>, p: InsertParams, now: string)
    ensures RunBatch(st, ps + [p], now) == Step(RunBatch(st, ps, now), p, now)
  {
    assert (ps + [p])[..|ps|] == ps;
  }

  /** The batch up to record i + 1 is the batch up to record i and one more INSERT. */
  lemma RunBatchPrefix(st: Store, ps: seq<InsertParams>, i: nat, now: string)
    requires i < |ps|
    ensures RunBatch(st, ps[..i + 1], now) == Step(RunBatch(st, ps[..i], now), ps[i], now)
  {
    assert ps[..i + 1][..i] == ps[..i];
  }

  /** Whether the k-th record of the batch was inserted. */
  ghost predicate Accepted(st: Store, ps: seq<InsertParams>, now: string, k: nat)
    requires k < |ps|
  {
    Admits(RunBatch(st, ps[..k], now).store.rows, ps[k])
  }

  /** After the first k records, a url is stored iff it was stored before the
      batch or an inserted record among the first k carries it. */
  lemma {:induction false} StoredUrlsAfter(st: Store, ps: seq<InsertParams>, now: string, k: nat, u: string)
    requires k <= |ps|
    ensures UrlStored(RunBatch(st, ps[..k], now).store.rows, u)
        <==> UrlStored(st.rows, u)
             || exists j :: 0 <= j < k && Accepted(st, ps, now, j) && ps[j].url == Some(u)
  {
    if k == 0 {
      assert ps[..0] == [];
    } else {
      StoredUrlsAfter(st, ps, now, k - 1, u);
      assert ps[..k][..k - 1] == ps[..k - 1];
      assert ps[..k][k - 1] == ps[k - 1];
      var prev := RunBatch(st, ps[..k - 1], now);
      if Admits(prev.store.rows, ps[k - 1]) {
        UrlStoredAppend(prev.store.rows, MakeRow(prev.store.nextId, ps[k - 1], now), u);
      }
      if exists j :: 0 <= j < k && Accepted(st, ps, now, j) && ps[j].url == Some(u) {
        var j :| 0 <= j < k && Accepted(st, ps, now, j) && ps[j].url == Some(u);
        if j < k - 1 {
          assert exists j' :: 0 <= j' < k - 1 && Accepted(st, ps, now, j') && ps[j'].url == Some(u);
        }
      }
    }
  }

  /** The fate of one record: it is inserted iff its NOT NULL columns all have
      a value, its url is not stored yet, and no earlier inserted record of the
      same batch carries the same url (whatever the titles are). */
  lemma AcceptedIff(st: Store, ps: seq<InsertParams>, now: string, k: nat)
    requires k < |ps|
    ensures Accepted(st, ps, now, k)
        <==> && NotNullOk(ps[k])
             && !UrlStored(st.rows, ps[k].url.value)
             && forall j :: 0 <= j < k && Accepted(st, ps, now, j) ==> ps[j].url != ps[k].url
  {
    var prev := RunBatch(st, ps[..k], now);
    AdmitsByUrl(prev.store.rows, ps[k]);
    if NotNullOk(ps[k]) {
      StoredUrlsAfter(st, ps, now, k, ps[k].url.value);
    }
  }

  /** The scenario of an ingestion of three complete records with distinct urls,
      one of which is already stored: two are inserted, the table grows by two. */
  lemma ThreeRecordBatch(st: Store, ps: seq<InsertParams>, now: string)
    requires StoreValid(st) && |ps| == 3
    requires NotNullOk(ps[0]) && NotNullOk(ps[1]) && NotNullOk(ps[2])
    requires ps[0].url != ps[1].url && ps[1].url != ps[2].url && ps[0].url != ps[2].url
    requires UrlStored(st.rows, ps[1].url.value)
    requires !UrlStored(st.rows, ps[0].url.value) && !UrlStored(st.rows, ps[2].url.value)
    ensures RunBatch(st, ps, now).inserted == 2
    ensures |RunBatch(st, ps, now).store.rows| == |st.rows| + 2
  {
    assert ps[..0] == [] && ps[..3] == ps;
    RunBatchPrefix(st, ps, 0, now);
    RunBatchPrefix(st, ps, 1, now);
    RunBatchPrefix(st, ps, 2, now);
    var t1 := RunBatch(st, ps[..1], now);
    var t2 := RunBatch(st, ps[..2], now);
    var row0 := MakeRow(st.nextId, ps[0], now);
    AdmitsByUrl(st.rows, ps[0]);
    assert t1.store.rows == st.rows + [row0] && t1.inserted == 1;
    UrlStoredAppend(st.rows, row0, ps[1].url.value);
    AdmitsByUrl(t1.store.rows, ps[1]);
    assert t2 == Step(t1, ps[1], now);
    assert t2.store == t1.store && t2.inserted == 1;
    UrlStoredAppend(st.rows, row0, ps[2].url.value);
    AdmitsByUrl(t2.store.rows, ps[2]);
  }

  /** Re-ingesting a one-record batch: the first run inserts it, the second
      inserts nothing and leaves the table as it was. */
  lemma ReinsertSameRecord(st: Store, p: InsertParams, now: string)
    requires NotNullOk(p) && !UrlStored(st.rows, p.url.value)
    ensures RunBatch(st, [p], now).inserted == 1
    ensures var st' := RunBatch(st, [p], now).store;
            RunBatch(st', [p], now).inserted == 0 && RunBatch(st', [p], now).store == st'
  {
    assert [p][..0] == [] && [p][..1] == [p];
    RunBatchPrefix(st, [p], 0, now);
    AdmitsByUrl(st.rows, p);
    var st' := RunBatch(st, [p], now).store;
    assert st'.rows == st.rows + [MakeRow(st.nextId, p, now)];
    UrlStoredAppend(st.rows, MakeRow(st.nextId, p, now), p.url.value);
    assert UrlStored(st'.rows, p.url.value);
  }

  /** The parameters `add_news` binds for one record: the NOT NULL text
      columns by `get` (a present value as it is, NULL when missing or None),
      the others with their defaults (a present value as it is, NULL for None). */
  function Bind(n: NewsInput): (p: InsertParams)
    ensures p.ulke == n.ulke.Get() && p.tarih == n.tarih.Get()
    ensures p.baslik == n.baslik.Get() && p.url == n.url.Get()
    ensures p.skor == n.skor.GetOr(0.0) && p.kategori == n.kategori.GetOr("Unknown")
    ensures p.kaynak == n.kaynak.GetOr("NewsAPI") && p.riskSeviyesi == n.riskSeviyesi.GetOr("Normal")
    ensures n.skor.Absent? ==> p.skor == Some(0.0)
    ensures n.kategori.Absent? ==> p.kategori == Some("Unknown")
    ensures n.kaynak.Absent? ==> p.kaynak == Some("NewsAPI")
    ensures n.riskSeviyesi.Absent? ==> p.riskSeviyesi == Some("Normal")
    ensures NotNullOk(p) ==> n.ulke.Val? && n.tarih.Val? && n.baslik.Val? && n.url.Val?
  {
    InsertParams(n.ulke.Get(), n.tarih.Get(), n.baslik.Get(), n.skor.GetOr(0.0), n.url.Get(),
                 n.kategori.GetOr("Unknown"), n.kaynak.GetOr("NewsAPI"), n.riskSeviyesi.GetOr("Normal"))
  }

  function BindAll(ns: seq<NewsInput>): (ps: seq<InsertParams>)
    ensures |ps| == |ns| && forall i :: 0 <= i < |ns| ==> ps[i] == Bind(ns[i])
  {
    seq(|ns|, i requires 0 <= i < |ns| => Bind(ns[i]))
  }

  /** `tarih` descending, in SQLite's binary text order: no row is newer
      than the row before it. */
  predicate SortedDesc(s: seq<Row>)
  {
    forall i :: 0 < i < |s| ==> Text.LexLe(s[i].tarih, s[i - 1].tarih)
  }

  /** In a newest-first sequence, a later row is never newer than an earlier one. */
  lemma {:induction false} SortedDescAt(s: seq<Row>, i: nat, j: nat)
    requires SortedDesc(s) && i <= j < |s|
    ensures Text.LexLe(s[j].tarih, s[i].tarih)
    decreases j - i
  {
    if i == j {
      Text.LexLeTotal(s[i].tarih, s[i].tarih);
    } else {
      SortedDescAt(s, i + 1, j);
      Text.LexLeTrans(s[j].tarih, s[i + 1].tarih, s[i].tarih);
    }
  }

  /** Dropping the newest row leaves a newest-first sequence. */
  lemma SortedTail(s: seq<Row>)
    requires SortedDesc(s) && s != []
    ensures SortedDesc(s[1..])
  {
    forall i | 0 < i < |s| - 1
      ensures Text.LexLe(s[1..][i].tarih, s[1..][i - 1].tarih)
    {
      assert s[1..][i] == s[i + 1] && s[1..][i - 1] == s[i];
    }
  }

  function InsertDesc(x: Row, s: seq<Row>): (r: seq<Row>)
    requires SortedDesc(s)
    ensures SortedDesc(r)
    ensures |r| == |s| + 1
    ensures multiset(r) == multiset(s) + multiset{x}
    ensures r[0] == x || (s != [] && r[0] == s[0])
    decreases |s|
  {
    if s == [] then [x]
    else if Text.LexLe(s[0].tarih, x.tarih) then
      assert SortedDesc([x] + s) by {
        forall i | 0 < i < |s| + 1
          ensures Text.LexLe(([x] + s)[i].tarih, ([x] + s)[i - 1].tarih)
        {
          if i > 1 { assert ([x] + s)[i] == s[i - 1] && ([x] + s)[i - 1] == s[i - 2]; }
        }
      }
      [x] + s
    else
      SortedTail(s);
      var tail := InsertDesc(x, s[1..]);
      Text.LexLeTotal(s[0].tarih, x.tarih);
      assert s == [s[0]] + s[1..];
      assert multiset([s[0]] + tail) == multiset{s[0]} + multiset(tail);
      assert SortedDesc([s[0]] + tail) by {
        forall i | 0 < i < |tail| + 1
          ensures Text.LexLe(([s[0]] + tail)[i].tarih, ([s[0]] + tail)[i - 1].tarih)
        {
          if i > 1 { assert ([s[0]] + tail)[i] == tail[i - 1] && ([s[0]] + tail)[i - 1] == tail[i - 2]; }
        }
      }
      [s[0]] + tail
  }

  /** `ORDER BY tarih DESC`: a permutation of the rows, newest first. */
  function SortByDateDesc(s: seq<Row>): (r: seq<Row>)
    ensures SortedDesc(r)
    ensures |r| == |s|
    ensures multiset(r) == multiset(s)
    decreases |s|
  {
    if s == [] then []
    else
      assert s == [s[0]] + s[1..];
      InsertDesc(s[0], SortByDateDesc(s[1..]))
  }

  /** `WHERE <column> = ?`: the rows satisfying the filter, in table order. */
  function Where(rows: seq<Row>, keep: Row -> bool): (r: seq<Row>)
    ensures forall x :: x in r <==> x in rows && keep(x)
    ensures multiset(r) <= multiset(rows)
    ensures forall x :: multiset(r)[x] == if keep(x) then multiset(rows)[x] else 0
    decreases |rows|
  {
    if rows == [] then []
    else
      assert rows == [rows[0]] + rows[1..];
      assert multiset(rows) == multiset{rows[0]} + multiset(rows[1..]);
      if keep(rows[0]) then [rows[0]] + Where(rows[1..], keep)
      else Where(rows[1..], keep)
  }

  /** Sorting keeps exactly the same members. */
  lemma SortedMembers(w: seq<Row>)
    ensures forall x :: x in SortByDateDesc(w) <==> x in w
  {
    var r := SortByDateDesc(w);
    forall x
      ensures x in r <==> x in w
    {
      assert x in r <==> x in multiset(r);
      assert x in w <==> x in multiset(w);
    }
  }

  /** The query of `get_news_by_country` over a table's rows: exactly the rows
      of that country, each as often as in the table, newest first. */
  function ByCountry(rows: seq<Row>, country: string): (r: seq<Row>)
    ensures forall x :: x in r <==> x in rows && x.ulke == country
    ensures forall x :: multiset(r)[x] == if x.ulke == country then multiset(rows)[x] else 0
    ensures SortedDesc(r)
  {
    var w := Where(rows, (x: Row) => x.ulke == country);
    SortedMembers(w);
    SortByDateDesc(w)
  }

  /** The query of `get_news_by_category`: exactly the rows of that category
      (a NULL category never matches), each as often as in the table, newest
      first. */
  function ByCategory(rows: seq<Row>, category: string): (r: seq<Row>)
    ensures forall x :: x in r <==> x in rows && x.kategori == Some(category)
    ensures forall x :: multiset(r)[x] == if x.kategori == Some(category) then multiset(rows)[x] else 0
    ensures SortedDesc(r)
  {
    var w := Where(rows, (x: Row) => x.kategori == Some(category));
    SortedMembers(w);
    SortByDateDesc(w)
  }

  /** The first k rows of a newest-first sequence are at least as new as
      every row after them. */
  lemma TakeLatest(sorted: seq<Row>, k: nat)
    requires SortedDesc(sorted) && k <= |sorted|
    ensures SortedDesc(sorted[..k])
    ensures multiset(sorted) == multiset(sorted[..k]) + multiset(sorted[k..])
    ensures forall x, i :: x in multiset(sorted) - multiset(sorted[..k]) && 0 <= i < k
              ==> Text.LexLe(x.tarih, sorted[..k][i].tarih)
  {
    var front, back := sorted[..k], sorted[k..];
    assert sorted == front + back;
    assert multiset(sorted) - multiset(front) == multiset(back);
    forall i | 0 < i < k
      ensures Text.LexLe(front[i].tarih, front[i - 1].tarih)
    {
      assert front[i] == sorted[i] && front[i - 1] == sorted[i - 1];
    }
    forall x, i | x in multiset(sorted) - multiset(front) && 0 <= i < k
      ensures Text.LexLe(x.tarih, front[i].tarih)
    {
      assert x in back;
      var j :| 0 <= j < |back| && back[j] == x;
      assert sorted[k + j] == x && front[i] == sorted[i];
      SortedDescAt(sorted, i, k + j);
    }
  }

  /** The query of `get_recent_news`: `LIMIT n` keeps the first n rows of the
      newest-first order; SQLite reads a negative limit as no limit. The result
      is newest first, and every row left out is no newer than any row kept. */
  function Recent(rows: seq<Row>, limit: int): (r: seq<Row>)
    ensures SortedDesc(r)
    ensures limit >= 0 ==> |r| == if limit < |rows| then limit else |rows|
    ensures limit < 0 ==> |r| == |rows|
    ensures multiset(r) <= multiset(rows)
    ensures forall x, i :: x in multiset(rows) - multiset(r) && 0 <= i < |r|
              ==> Text.LexLe(x.tarih, r[i].tarih)
  {
    var sorted := SortByDateDesc(rows);
    var k := if 0 <= limit < |rows| then limit else |rows|;
    TakeLatest(sorted, k);
    sorted[..k]
  }

  /** The database file: the `haberler` table (once created) and its rows. */
  class NewsTable {
    var created: bool
    var rows: seq<Row>
    var nextId: nat

    ghost predicate Valid()
      reads this
    {
      (created || rows == []) && StoreValid(Store(rows, nextId))
    }

    function Snapshot(): Store
      reads this
    {
      Store(rows, nextId)
    }

    constructor ()
      ensures Valid() && !created && rows == [] && nextId == 1
    {
      created, rows, nextId := false, [], 1;
    }

    /** `CREATE TABLE IF NOT EXISTS`: creates the table once, never touches rows. */
    method CreateIfNotExists()
      requires Valid()
      modifies this
      ensures Valid() && created
      ensures rows == old(rows) && nextId == old(nextId)
    {
      created := true;
    }

    /** One INSERT: adds the row when the constraints admit it. */
    method Insert(p: InsertParams, now: string) returns (ok: bool)
      requires Valid() && created
      modifies this
      ensures Valid() && created
      ensures ok == Admits(old(rows), p)
      ensures ok ==> Snapshot() == Store(old(rows) + [MakeRow(old(nextId), p, now)], old(nextId) + 1)
      ensures !ok ==> Snapshot() == old(Snapshot())
    {
      ok := Admits(rows, p);
      StepKeepsValid(Tally(Snapshot(), 0, 0), p, now);
      if ok {
        rows := rows + [MakeRow(nextId, p, now)];
        nextId := nextId + 1;
      }
    }

    /** Rollback of an uncommitted transaction: restores the state at its start. */
    method Restore(st: Store)
      requires StoreValid(st) && (created || st.rows == [])
      modifies this
      ensures Valid() && Snapshot() == st && created == old(created)
    {
      rows, nextId := st.rows, st.nextId;
    }
  }

  /** `SQLiteNewsRepository`: the store of the layered generation. */
  class SQLiteNewsRepository {
    const dbPath: string
    const db: NewsTable

    constructor (dbPath: string, db: NewsTable)
      ensures this.dbPath == dbPath && this.db == db
    {
      this.dbPath := dbPath;
      this.db := db;
    }

    /** `init_database`: idempotent; returns True and keeps every stored row. */
    method InitDatabase() returns (ok: bool)
      requires db.Valid()
      modifies db
      ensures db.Valid() && ok && db.created
      ensures db.Snapshot() == old(db.Snapshot())
    {
      db.CreateIfNotExists();
      ok := true;
    }

    /** `add_news`: an empty batch returns 0 at once; a missing table raises;
        otherwise the records are inserted one by one, each constraint
        violation is skipped and counted as a duplicate, and the number of rows
        actually added is returned. */
    method AddNews(newsList: seq<NewsInput>, now: string) returns (r: Result<nat, StoreError>)
      requires db.Valid()
      modifies db
      ensures db.Valid() && db.created == old(db.created)
      ensures newsList == [] ==> r == Ok(0) && db.Snapshot() == old(db.Snapshot())
      ensures newsList != [] && !old(db.created) ==> r == Err(NoSuchTable) && db.Snapshot() == old(db.Snapshot())
      ensures newsList != [] && old(db.created) ==>
                var t := RunBatch(old(db.Snapshot()), BindAll(newsList), now);
                r == Ok(t.inserted) && db.Snapshot() == t.store
    {
      if newsList == [] {
        return Ok(0);
      }
      if !db.created {
        return Err(NoSuchTable);
      }
      ghost var start := db.Snapshot();
      ghost var ps := BindAll(newsList);
      var inserted, duplicates := 0, 0;
      var i := 0;
      while i < |newsList|
        invariant 0 <= i <= |newsList|
        invariant db.Valid() && db.created
        invariant Tally(db.Snapshot(), inserted, duplicates) == RunBatch(start, ps[..i], now)
      {
        RunBatchPrefix(start, ps, i, now);
        var ok := db.Insert(Bind(newsList[i]), now);
        if ok {
          inserted := inserted + 1;
        } else {
          duplicates := duplicates + 1;
        }
        i := i + 1;
      }
      assert ps[..|newsList|] == ps;
      r := Ok(inserted);
    }

    /** `get_all_news`: the rows in table order; a missing table raises. */
    function GetAllNews(): (r: Result<seq<Row>, StoreError>)
      reads this, db
      ensures r.Ok? <==> db.created
      ensures r.Ok? ==> r.value == db.rows
    {
      if db.created then Ok(db.rows) else Err(NoSuchTable)
    }

    /** `get_news_by_country`: the country's rows newest first; [] when the
        table is missing (the sqlite3.Error is caught). */
    function GetNewsByCountry(country: string): (r: seq<Row>)
      reads this, db
      ensures forall x :: x in r <==> db.created && x in db.rows && x.ulke == country
      ensures db.created ==> r == ByCountry(db.rows, country)
      ensures !db.created ==> r == []
      ensures SortedDesc(r)
    {
      if db.created then ByCountry(db.rows, country) else []
    }

    /** `get_news_by_category`: the category's rows newest first; [] when the
        table is missing. */
    function GetNewsByCategory(category: string): (r: seq<Row>)
      reads this, db
      ensures forall x :: x in r <==> db.created && x in db.rows && x.kategori == Some(category)
      ensures db.created ==> r == ByCategory(db.rows, category)
      ensures !db.created ==> r == []
      ensures SortedDesc(r)
    {
      if db.created then ByCategory(db.rows, category) else []
    }

    /** `get_recent_news`: the `limit` newest rows; a missing table raises. */
    function GetRecentNews(limit: int): (r: Result<seq<Row>, StoreError>)
      reads this, db
      ensures r.Ok? <==> db.created
      ensures r.Ok? ==> r.value == Recent(db.rows, limit)
    {
      if db.created then Ok(Recent(db.rows, limit)) else Err(NoSuchTable)
    }
  }
}

=== FILE: settings.dfy ===
/** src/config/settings.py: the dataclass configuration of the layered
    generation, its five-level risk table and the settings singleton. */
module Settings {
  import opened Common
  import Text

  const SQLITE_SCHEME := "sqlite:///"
  const DEFAULT_DATABASE_URL := "sqlite:///haber_analizi.db"

  /** `DatabaseConfig`: the database url. */
  datatype DatabaseConfig = DatabaseConfig(url: string) {

    /** The `db_path` property: the url with every "sqlite:///" removed. */
    function DbPath(): string
    {
      Text.ReplaceAll(url, SQLITE_SCHEME, "")
    }
  }

  /** `db_path` of a url of the form "sqlite:///" + p, where p holds no further
      occurrence of the scheme, is p; a url without the scheme is its own path. */
  lemma DbPathOfUrl(p: string)
    requires !Text.Contains(p, SQLITE_SCHEME)
    ensures DatabaseConfig(SQLITE_SCHEME + p).DbPath() == p
    ensures DatabaseConfig(p).DbPath() == p
  {
    Text.LeadingPatternRemoved(SQLITE_SCHEME, p);
    Text.ReplaceAbsent(p, SQLITE_SCHEME, "");
  }

  /** The default url gives the file "haber_analizi.db". */
  lemma DefaultDbPath(url: string)
    requires url == DEFAULT_DATABASE_URL
    ensures DatabaseConfig(url).DbPath() == "haber_analizi.db"
  {
    var p := url[|SQLITE_SCHEME|..];
    assert url == SQLITE_SCHEME + p;
    assert p == "haber_analizi.db";
    assert forall i :: 0 <= i < |p| ==> p[i] != 's';
    Text.NoFirstCharNotContained(p, SQLITE_SCHEME);
    DbPathOfUrl(p);
  }

  /** `APIConfig`: the two service keys. */
  datatype APIConfig = APIConfig(googleApiKey: string, newsApiKey: string) {

    /** The required attribute names whose value is empty, in checking order. */
    function Missing(): seq<string>
    {
      (if googleApiKey == "" then ["google_api_key"] else [])
      + (if newsApiKey == "" then ["news_api_key"] else [])
    }

    /** `validate`: true exactly when both keys are non-empty. */
    function Validate(): (ok: bool)
      ensures ok <==> googleApiKey != "" && newsApiKey != ""
    {
      |Missing()| == 0
    }
  }

  /** The five labels of the configurable risk table, most severe first. */
  datatype RiskLevel = Kritik | Uyari | Normal | Pozitif | CokPozitif {

    function Label(): string
    {
      match this
      case Kritik => "🔴 KRİTİK"
      case Uyari => "🟠 UYARI"
      case Normal => "🟡 NORMAL"
      case Pozitif => "🟢 POZİTİF"
      case CokPozitif => "🟢 ÇOK POZİTİF"
    }

    /** 4 for the most severe label, 0 for the least. */
    function Severity(): nat
    {
      match this
      case Kritik => 4
      case Uyari => 3
      case Normal => 2
      case Pozitif => 1
      case CokPozitif => 0
    }
  }

  /** Distinct levels have distinct label texts. */
  lemma LabelInjective(a: RiskLevel, b: RiskLevel)
    requires a.Label() == b.Label()
    ensures a == b
  {
  }

  /** `RiskThresholdsConfig`: four overridable boundaries. */
  datatype RiskThresholds = RiskThresholds(critical: real, warning: real, normal: real, positive: real) {

    /** The level the `get_risk_level` if-chain selects. */
    function Level(score: real): (l: RiskLevel)
      ensures l == Kritik <==> score <= critical
      ensures l == Uyari <==> critical < score <= warning
      ensures l == Normal <==> critical < score && warning < score && score < normal
      ensures l == Pozitif <==> critical < score && warning < score && normal <= score < positive
      ensures l == CokPozitif <==> critical < score && warning < score && normal <= score && positive <= score
    {
      if score <= critical then Kritik
      else if score <= warning then Uyari
      else if score < normal then Normal
      else if score < positive then Pozitif
      else CokPozitif
    }

    /** `get_risk_level` */
    function GetRiskLevel(score: real): string
    {
      Level(score).Label()
    }
  }

  const DEFAULT_THRESHOLDS := RiskThresholds(-0.7, -0.4, 0.0, 0.5)

  /** A higher score never gets a more severe label, whatever the four
      boundaries are: each branch of the chain tests a downward-closed set. */
  lemma LevelMonotone(t: RiskThresholds, s1: real, s2: real)
    requires s1 <= s2
    ensures t.Level(s2).Severity() <= t.Level(s1).Severity()
  {
  }

  /** With the default boundaries: -0.8 is critical, -0.5 a warning, 0.0 positive,
      0.7 very positive; any boundary itself takes the branch it closes. */
  lemma DefaultLevels(t: RiskThresholds)
    ensures DEFAULT_THRESHOLDS.GetRiskLevel(-0.8) == "🔴 KRİTİK"
    ensures DEFAULT_THRESHOLDS.GetRiskLevel(-0.5) == "🟠 UYARI"
    ensures DEFAULT_THRESHOLDS.GetRiskLevel(-0.1) == "🟡 NORMAL"
    ensures DEFAULT_THRESHOLDS.GetRiskLevel(0.0) == "🟢 POZİTİF"
    ensures DEFAULT_THRESHOLDS.GetRiskLevel(0.7) == "🟢 ÇOK POZİTİF"
    ensures t.Level(t.critical) == Kritik
    ensures t.critical < t.warning ==> t.Level(t.warning) == Uyari
    ensures t.critical < t.positive && t.warning < t.positive && t.normal <= t.positive
            ==> t.Level(t.positive) == CokPozitif
  {
  }

  /** `SecurityConfig`; `__post_init__` derives `debug` from the environment. */
  class SecurityConfig {
    const secretKey: string
    const streamlitPassword: string
    const environment: string
    var debug: bool

    constructor (secretKey: string, streamlitPassword: string, environment: string)
      ensures this.secretKey == secretKey && this.streamlitPassword == streamlitPassword
      ensures this.environment == environment
      ensures debug <==> environment == "development"
    {
      this.secretKey := secretKey;
      this.streamlitPassword := streamlitPassword;
      this.environment := environment;
      debug := false;
      new;
      debug := environment == "development";
    }

    /** `is_production` */
    function IsProduction(): (p: bool)
      ensures p <==> environment == "production"
    {
      environment == "production"
    }
  }

  /** A fresh security configuration is in debug mode exactly in development and
      in production mode exactly in production; never both. */
  method NewSecurityConfig(env: Env) returns (s: SecurityConfig)
    ensures fresh(s)
    ensures s.secretKey == GetEnv(env, "SECRET_KEY", "change-this-in-production")
    ensures s.streamlitPassword == GetEnv(env, "STREAMLIT_PASSWORD", "")
    ensures s.environment == GetEnv(env, "ENVIRONMENT", "development")
    ensures s.debug <==> s.environment == "development"
    ensures !(s.debug && s.IsProduction())
    ensures "ENVIRONMENT" !in env ==> s.debug && !s.IsProduction()
  {
    s := new SecurityConfig(
      GetEnv(env, "SECRET_KEY", "change-this-in-production"),
      GetEnv(env, "STREAMLIT_PASSWORD", ""),
      GetEnv(env, "ENVIRONMENT", "development"));
  }

  /** `CountriesConfig.codes`: the six monitored countries, in dict order. */
  const COUNTRY_CODES: seq<(string, string)> := [
    ("us", "United States"), ("kr", "South Korea"), ("fr", "France"),
    ("es", "Spain"), ("it", "Italy"), ("gr", "Greece")]

  /** `NewsConfig.categories`: the eight topics, in list order. */
  const CATEGORIES: seq<string> := [
    "Artificial Intelligence", "Cybersecurity", "Hardware & Chips",
    "Crypto & Fintech", "Electric Vehicles", "Software Development",
    "Cloud Computing", "Mobile Technology"]

  /** `Settings`: the configuration sections read from the environment. */
  class Settings {
    const database: DatabaseConfig
    const api: APIConfig
    const riskThresholds: RiskThresholds
    const security: SecurityConfig
    const countryCodes: seq<(string, string)>
    const categories: seq<string>

    /** Every section holds what `__init__` reads from `env`, defaults included. */
    predicate BuiltFrom(env: Env)
      reads this, security
    {
      && database == DatabaseConfig(GetEnv(env, "DATABASE_URL", DEFAULT_DATABASE_URL))
      && api == APIConfig(GetEnv(env, "GOOGLE_API_KEY", ""), GetEnv(env, "NEWS_API_KEY", ""))
      && riskThresholds == DEFAULT_THRESHOLDS
      && security.secretKey == GetEnv(env, "SECRET_KEY", "change-this-in-production")
      && security.streamlitPassword == GetEnv(env, "STREAMLIT_PASSWORD", "")
      && security.environment == GetEnv(env, "ENVIRONMENT", "development")
      && (security.debug <==> security.environment == "development")
      && countryCodes == COUNTRY_CODES
      && categories == CATEGORIES
    }

    constructor (env: Env)
      ensures fresh(security)
      ensures BuiltFrom(env)
    {
      database := DatabaseConfig(GetEnv(env, "DATABASE_URL", DEFAULT_DATABASE_URL));
      api := APIConfig(GetEnv(env, "GOOGLE_API_KEY", ""), GetEnv(env, "NEWS_API_KEY", ""));
      riskThresholds := DEFAULT_THRESHOLDS;
      var sec := NewSecurityConfig(env);
      security := sec;
      countryCodes := COUNTRY_CODES;
      categories := CATEGORIES;
    }

    /** `validate_all`: exactly the API key check. */
    function ValidateAll(): (ok: bool)
      ensures ok <==> api.googleApiKey != "" && api.newsApiKey != ""
    {
      api.Validate()
    }
  }

  /** The module-level `_settings_instance` global. */
  class SettingsRegistry {
    var instance: Settings?

    constructor ()
      ensures instance == null
    {
      instance := null;
    }

    /** `get_settings`: builds the settings on the first call only. */
    method GetSettings(env: Env) returns (s: Settings)
      modifies this
      ensures old(instance) != null ==> s == old(instance)
      ensures old(instance) == null ==> fresh(s) && fresh(s.security) && s.BuiltFrom(env)
      ensures instance == s
    {
      if instance == null {
        instance := new Settings(env);
      }
      s := instance;
    }
  }

  /** Two calls return the same object, even under a changed environment. */
  method GetSettingsTwice(registry: SettingsRegistry, env1: Env, env2: Env) returns (a: Settings, b: Settings)
    modifies registry
    ensures a == b && registry.instance == a
  {
    a := registry.GetSettings(env1);
    b := registry.GetSettings(env2);
  }
}

=== FILE: shared_utils.dfy ===
/** src/utils/__init__.py: the TTL cache manager with its memoising
    decorator, the retry policy with exponential backoff, and the record
    validators of the layered generation. */
module SharedUtils {
  import opened Common
  import Text

  // ---------------------------------------------------------------------
  // CacheManager
  // ---------------------------------------------------------------------

  /** Entries of the manager: key -> (value, expiry time). A stored value
      may itself be Python's None, written `None` here. */
  type ManagerEntries<T> = map<string, (Option<T>, real)>

  /** `ttl or self.ttl`: a missing or zero lifetime falls back to the default. */
  function EffectiveTtl(ttl: Option<int>, default: int): (t: int)
    ensures ttl.None? ==> t == default
    ensures ttl.Some? && ttl.value == 0 ==> t == default
    ensures ttl.Some? && ttl.value != 0 ==> t == ttl.value
  {
    if ttl.None? || ttl.value == 0 then default else ttl.value
  }

  /** What `get(key)` at time now returns: the stored value while now is
      before its expiry, None otherwise. */
  function ManagerLookup<T>(entries: ManagerEntries<T>, key: string, now: real): Option<T>
  {
    if key in entries && now < entries[key].1 then entries[key].0 else None
  }

  /** The entries after `get(key)` at time now: an entry at or past its expiry is deleted. */
  function ManagerAfterGet<T>(entries: ManagerEntries<T>, key: string, now: real): ManagerEntries<T>
  {
    if key in entries && !(now < entries[key].1) then entries - {key} else entries
  }

  /** The entries after `set(key, value, ttl)` at time now. */
  function ManagerAfterSet<T>(entries: ManagerEntries<T>, key: string, value: Option<T>,
                              ttl: Option<int>, default: int, now: real): ManagerEntries<T>
  {
    entries[key := (value, now + EffectiveTtl(ttl, default) as real)]
  }

  /** An absent key, or an entry at or past its expiry, is a miss; and the
      expired entry is gone after the `get`, while every other key keeps its entry. */
  lemma ManagerGetMisses<T>(entries: ManagerEntries<T>, key: string, now: real)
    ensures key !in entries ==> ManagerLookup(entries, key, now) == None
    ensures key in entries && entries[key].1 <= now ==>
              ManagerLookup(entries, key, now) == None && key !in ManagerAfterGet(entries, key, now)
    ensures key in entries && now < entries[key].1 ==>
              ManagerLookup(entries, key, now) == entries[key].0
              && ManagerAfterGet(entries, key, now) == entries
    ensures forall k :: k != key ==>
              (k in ManagerAfterGet(entries, key, now) <==> k in entries)
              && (k in entries ==> ManagerAfterGet(entries, key, now)[k] == entries[k])
  {
  }

  /** A `set` without an explicit lifetime (or with 0) expires after the
      default lifetime; the stored value is served until then, and no other
      key changes. */
  lemma ManagerSetThenGet<T>(entries: ManagerEntries<T>, key: string, value: Option<T>,
                             ttl: Option<int>, default: int, now: real, later: real)
    requires now <= later < now + EffectiveTtl(ttl, default) as real
    ensures ManagerLookup(ManagerAfterSet(entries, key, value, ttl, default, now), key, later) == value
    ensures (ttl.None? || ttl == Some(0)) ==>
              ManagerAfterSet(entries, key, value, ttl, default, now)[key].1 == now + default as real
    ensures forall k :: k != key && k in entries ==>
              ManagerLookup(ManagerAfterSet(entries, key, value, ttl, default, now), k, later)
              == ManagerLookup(entries, k, later)
  {
  }

  /** The result of a call through the `cached` decorator, and the entries
      after it: a stored non-None value is served; anything else (a miss, an
      expired entry, or a stored None) is recomputed and stored again. */
  function CachedCall<T>(entries: ManagerEntries<T>, key: string, computed: Option<T>,
                         ttl: Option<int>, default: int, now: real): (ManagerEntries<T>, Option<T>)
  {
    var hit := ManagerLookup(entries, key, now);
    if hit.Some? then (ManagerAfterGet(entries, key, now), hit)
    else (ManagerAfterSet(ManagerAfterGet(entries, key, now), key, computed, ttl, default, now), computed)
  }

  /** `cached` never serves a stored None: such a call returns the freshly
      computed result and stores it; a served value is the stored one. */
  lemma CachedNeverServesNone<T>(entries: ManagerEntries<T>, key: string, computed: Option<T>,
                                 ttl: Option<int>, default: int, now: real)
    ensures var (after, r) := CachedCall(entries, key, computed, ttl, default, now);
            && (ManagerLookup(entries, key, now).None? ==>
                 r == computed && after[key] == (computed, now + EffectiveTtl(ttl, default) as real))
            && (ManagerLookup(entries, key, now).Some? ==>
                 r == entries[key].0 && after == entries)
  {
  }

  /** A value computed once is served by the next call with the same key
      within its lifetime, whatever that call would compute. */
  lemma CachedTwice<T>(entries: ManagerEntries<T>, key: string, v: T, other: Option<T>,
                       ttl: Option<int>, default: int, now: real, later: real)
    requires ManagerLookup(entries, key, now).None?
    requires now <= later < now + EffectiveTtl(ttl, default) as real
    ensures var (after, r) := CachedCall(entries, key, Some(v), ttl, default, now);
            r == Some(v) && CachedCall(after, key, other, ttl, default, later).1 == Some(v)
  {
  }

  /** `CacheManager`; the clock reading of each call is passed in as `now`. */
  class CacheManager<T> {
    var entries: ManagerEntries<T>
    const ttl: int

    constructor (ttlSeconds: int)
      ensures entries == map[] && ttl == ttlSeconds
    {
      entries := map[];
      ttl := ttlSeconds;
    }

    /** `get` */
    method Get(key: string, now: real) returns (r: Option<T>)
      modifies this
      ensures r == ManagerLookup(old(entries), key, now)
      ensures entries == ManagerAfterGet(old(entries), key, now)
    {
      if key !in entries {
        return None;
      }
      var (value, expiry) := entries[key];
      if now < expiry {
        r := value;
      } else {
        entries := entries - {key};
        r := None;
      }
    }

    /** `set(key, value, ttl)` */
    method Set(key: string, value: Option<T>, ttlOverride: Option<int>, now: real)
      modifies this
      ensures entries == ManagerAfterSet(old(entries), key, value, ttlOverride, ttl, now)
    {
      var lifetime := if ttlOverride.None? || ttlOverride.value == 0 then ttl else ttlOverride.value;
      entries := entries[key := (value, now + lifetime as real)];
    }

    /** `clear` */
    method Clear()
      modifies this
      ensures entries == map[]
    {
      entries := map[];
    }

    /** The wrapper the `cached(ttl)` decorator puts around a function: the
        cache key and the function's result for this call are parameters. */
    method Cached(key: string, computed: Option<T>, ttlOverride: Option<int>, now: real)
      returns (r: Option<T>)
      modifies this
      ensures (entries, r) == CachedCall(old(entries), key, computed, ttlOverride, ttl, now)
    {
      var cachedValue := Get(key, now);
      if cachedValue.Some? {
        return cachedValue;
      }
      Set(key, computed, ttlOverride, now);
      r := computed;
    }
  }

  // ---------------------------------------------------------------------
  // ErrorHandler.retry
  // ---------------------------------------------------------------------

  function Pow2(k: nat): (p: nat)
    ensures p >= 1
  {
    if k == 0 then 1 else 2 * Pow2(k - 1)
  }

  /** `delay * (2 ** k)`: the wait after the failed attempt k (counting from 0). */
  function Backoff(delay: real, k: nat): real
  {
    delay * (Pow2(k) as real)
  }

  /** Each wait is twice the one before it; the first is the base delay. */
  lemma BackoffDoubles(delay: real, k: nat)
    ensures Backoff(delay, 0) == delay
    ensures Backoff(delay, k + 1) == 2.0 * Backoff(delay, k)
  {
    assert Pow2(k + 1) as real == 2.0 * (Pow2(k) as real);
  }

  /** How a call through the retry wrapper ends: a returned value, the error
      of the last attempt re-raised, or None when no attempt is made. */
  datatype RetryOutcome<T> = Returned(value: T) | Raised(error: string) | NoAttempt

  /** The wrapper `retry(max_retries, delay)` puts around a function. The
      outcome of the k-th call is `attempt(k)`; the method reports how many
      calls were made and the seconds slept between them. */
  method Retry<T>(maxRetries: int, delay: real, attempt: nat -> Result<T, string>)
    returns (r: RetryOutcome<T>, calls: nat, sleeps: seq<real>)
    ensures maxRetries <= 0 ==> r == NoAttempt && calls == 0 && sleeps == []
    ensures maxRetries > 0 ==> 1 <= calls <= maxRetries && !r.NoAttempt?
    ensures forall k :: 0 <= k < calls - 1 ==> attempt(k).Err?
    ensures r.Returned? ==> attempt(calls - 1) == Ok(r.value)
    ensures r.Raised? ==> calls == maxRetries && attempt(calls - 1) == Err(r.error)
    ensures calls > 0 ==> |sleeps| == calls - 1
    ensures forall k :: 0 <= k < |sleeps| ==> sleeps[k] == Backoff(delay, k)
  {
    r := NoAttempt;
    calls := 0;
    sleeps := [];
    var k := 0;
    while k < maxRetries
      invariant 0 <= k && (maxRetries > 0 ==> k < maxRetries) && (maxRetries <= 0 ==> k == 0)
      invariant calls == k && |sleeps| == k
      invariant forall j :: 0 <= j < k ==> attempt(j).Err?
      invariant forall j :: 0 <= j < k ==> sleeps[j] == Backoff(delay, j)
      decreases maxRetries - k
    {
      var outcome := attempt(k);
      calls := calls + 1;
      if outcome.Ok? {
        return Returned(outcome.value), calls, sleeps;
      }
      if k == maxRetries - 1 {
        return Raised(outcome.error), calls, sleeps;
      }
      sleeps := sleeps + [Backoff(delay, k)];
      k := k + 1;
    }
  }

  // ---------------------------------------------------------------------
  // DataValidator
  // ---------------------------------------------------------------------

  const REQUIRED_FIELDS: seq<string> := ["baslik", "url", "ulke"]

  /** `validate_news_data`: every required field present and truthy. */
  function ValidateNewsData(news: Dict): (ok: bool)
    ensures ok <==> && "baslik" in news && Truthy(news["baslik"])
                    && "url" in news && Truthy(news["url"])
                    && "ulke" in news && Truthy(news["ulke"])
  {
    forall f :: f in REQUIRED_FIELDS ==> f in news && Truthy(news[f])
  }

  /** `validate_sentiment_score` */
  function ValidateSentimentScore(score: real): (ok: bool)
    ensures ok <==> -1.0 <= score <= 1.0
  {
    -1.0 <= score <= 1.0
  }

  /** `clean_text`: a string stripped and lowercased; anything else "". The
      result is the lower-cased slice of the text that only whitespace
      surrounds and that neither begins nor ends with whitespace. */
  function CleanText(text: Value): (r: string)
    ensures !text.VStr? ==> r == ""
    ensures r != [] ==> !Text.IsSpace(r[0]) && !Text.IsSpace(r[|r| - 1])
    ensures |r| <= (if text.VStr? then |text.s| else 0)
    ensures text.VStr? ==>
              exists i, j :: Text.SpaceOutside(text.s, i, j) && r == Text.Lower(text.s[i..j])
  {
    if text.VStr? then
      Text.StripIsSlice(text.s);
      Text.Lower(Text.Strip(text.s))
    else ""
  }

  /** Cleaning a cleaned text changes nothing. */
  lemma CleanTextIdempotent(text: Value)
    ensures CleanText(VStr(CleanText(text))) == CleanText(text)
  {
    var c := CleanText(text);
    Text.StripOfTrimmed(c);
    Text.LowerIdempotent(Text.Strip(if text.VStr? then text.s else ""));
  }
}

=== FILE: text.dfy ===
/** Python string operations used by the pipeline, over `seq<char>`:
    substring test, prefix slicing, `strip`, ASCII `lower`, `replace`,
    `split` on one character, and the binary (code point) order that
    SQLite's default collation applies to text. */
module Text {

  /** `s.startswith(p)` */
  predicate StartsWith(s: string, p: string)
  {
    |p| <= |s| && s[..|p|] == p
  }

  /** `p in s`: p occurs in s at some position. */
  predicate Contains(s: string, p: string)
    decreases |s|
  {
    StartsWith(s, p) || (|s| > 0 && Contains(s[1..], p))
  }

  /** A string in which the first character of `p` never occurs does not contain `p`. */
  lemma {:induction false} NoFirstCharNotContained(s: string, p: string)
    requires |p| > 0
    requires forall i :: 0 <= i < |s| ==> s[i] != p[0]
    ensures !Contains(s, p)
  {
    if |s| > 0 {
      assert |p| <= |s| ==> s[..|p|][0] != p[0];
      NoFirstCharNotContained(s[1..], p);
    }
  }

  /** Occurrences in a suffix are occurrences in the whole string. */
  lemma {:induction false} ContainsSuffix(s: string, k: nat, p: string)
    requires k <= |s|
    requires Contains(s[k..], p)
    ensures Contains(s, p)
  {
    if k > 0 {
      assert s[1..][k - 1..] == s[k..];
      ContainsSuffix(s[1..], k - 1, p);
    }
  }

  /** `s[:n]` for n >= 0 */
  function Prefix(s: string, n: nat): (r: string)
    ensures |r| <= n && |r| <= |s|
    ensures StartsWith(s, r)
    ensures |s| <= n ==> r == s
  {
    if |s| <= n then s else s[..n]
  }

  /** Characters Python's `str.isspace` accepts, which `str.strip()` removes. */
  predicate IsSpace(c: char)
  {
    c == ' ' || ('\t' <= c <= '\r') || ('\U{1C}' <= c <= '\U{1F}')
    || c == '\U{85}' || c == '\U{A0}' || c == '\U{1680}'
    || ('\U{2000}' <= c <= '\U{200A}') || c == '\U{2028}' || c == '\U{2029}'
    || c == '\U{202F}' || c == '\U{205F}' || c == '\U{3000}'
  }

  function TrimStart(s: string): (r: string)
    ensures |r| <= |s| && r == s[|s| - |r|..]
    ensures forall k :: 0 <= k < |s| - |r| ==> IsSpace(s[k])
    ensures r != [] ==> !IsSpace(r[0])
    decreases |s|
  {
    if |s| > 0 && IsSpace(s[0]) then TrimStart(s[1..]) else s
  }

  function TrimEnd(s: string): (r: string)
    ensures |r| <= |s| && r == s[..|r|]
    ensures forall k :: |r| <= k < |s| ==> IsSpace(s[k])
    ensures r != [] ==> !IsSpace(r[|r| - 1])
    decreases |s|
  {
    if |s| > 0 && IsSpace(s[|s| - 1]) then TrimEnd(s[..|s| - 1]) else s
  }

  /** `s.strip()`: no whitespace is left at either end. */
  function Strip(s: string): (r: string)
    ensures r != [] ==> !IsSpace(r[0]) && !IsSpace(r[|r| - 1])
    ensures |r| <= |s|
  {
    var t := TrimStart(s);
    var r := TrimEnd(t);
    assert r != [] ==> r[0] == t[0];
    r
  }

  /** `s[i..j]` is a slice of `s` outside which lies only whitespace. */
  predicate SpaceOutside(s: string, i: int, j: int)
  {
    && 0 <= i <= j <= |s|
    && (forall k :: 0 <= k < i ==> IsSpace(s[k]))
    && (forall k :: j <= k < |s| ==> IsSpace(s[k]))
  }

  /** The strip of `s` is a slice of `s`, and only whitespace lies outside it. */
  lemma StripIsSlice(s: string)
    ensures exists i, j :: SpaceOutside(s, i, j) && Strip(s) == s[i..j]
  {
    var t := TrimStart(s);
    var i := |s| - |t|;
    var j := i + |TrimEnd(t)|;
    assert t == s[i..];
    assert Strip(s) == s[i..j];
    forall k | j <= k < |s|
      ensures IsSpace(s[k])
    {
      assert s[k] == t[k - i];
    }
    assert SpaceOutside(s, i, j);
  }

  /** A string that already has no whitespace at either end is its own strip. */
  lemma StripOfTrimmed(s: string)
    requires s != [] ==> !IsSpace(s[0]) && !IsSpace(s[|s| - 1])
    ensures Strip(s) == s
  {
  }

  /** Lower-casing of one character, for the ASCII letters. */
  function LowerChar(c: char): (r: char)
    ensures IsSpace(r) <==> IsSpace(c)
    ensures ('A' <= c <= 'Z') ==> 'a' <= r <= 'z'
    ensures !('A' <= c <= 'Z') ==> r == c
  {
    if 'A' <= c <= 'Z' then (c as int + 32) as char else c
  }

  /** `s.lower()` restricted to ASCII letters. */
  function Lower(s: string): (r: string)
    ensures |r| == |s|
    ensures forall i :: 0 <= i < |s| ==> r[i] == LowerChar(s[i])
  {
    seq(|s|, i requires 0 <= i < |s| => LowerChar(s[i]))
  }

  lemma LowerIdempotent(s: string)
    ensures Lower(Lower(s)) == Lower(s)
  {
  }

  /** `s.replace(pat, rep)`: every non-overlapping occurrence of `pat`,
      scanning from the left, is replaced by `rep`. */
  function ReplaceAll(s: string, pat: string, rep: string): string
    requires |pat| > 0
    decreases |s|
  {
    if |s| < |pat| then s
    else if s[..|pat|] == pat then rep + ReplaceAll(s[|pat|..], pat, rep)
    else [s[0]] + ReplaceAll(s[1..], pat, rep)
  }

  /** Replacing a pattern that does not occur changes nothing. */
  lemma {:induction false} ReplaceAbsent(s: string, pat: string, rep: string)
    requires |pat| > 0
    requires !Contains(s, pat)
    ensures ReplaceAll(s, pat, rep) == s
  {
    if |s| >= |pat| {
      assert !StartsWith(s, pat);
      ReplaceAbsent(s[1..], pat, rep);
    }
  }

  /** Removing a leading occurrence of the pattern from `pat + p`, where `p`
      holds no further occurrence, leaves `p`. */
  lemma LeadingPatternRemoved(pat: string, p: string)
    requires |pat| > 0
    requires !Contains(p, pat)
    ensures ReplaceAll(pat + p, pat, "") == p
  {
    var s := pat + p;
    assert s[..|pat|] == pat;
    assert s[|pat|..] == p;
    ReplaceAbsent(p, pat, "");
  }

  /** `s.split(sep)[0]`: the part of s before the first `sep`, or all of s. */
  function BeforeFirst(s: string, sep: char): (r: string)
    ensures StartsWith(s, r)
    ensures forall i :: 0 <= i < |r| ==> r[i] != sep
    ensures |r| < |s| ==> s[|r|] == sep
    decreases |s|
  {
    if |s| == 0 then ""
    else if s[0] == sep then ""
    else [s[0]] + BeforeFirst(s[1..], sep)
  }

  /** SQLite's BINARY collation: compare code points, a proper prefix sorts first. */
  predicate LexLe(a: string, b: string)
    decreases |a|
  {
    |a| == 0 || (|b| > 0 && (a[0] < b[0] || (a[0] == b[0] && LexLe(a[1..], b[1..]))))
  }

  lemma {:induction false} LexLeTotal(a: string, b: string)
    ensures LexLe(a, b) || LexLe(b, a)
    decreases |a|
  {
    if |a| > 0 && |b| > 0 && a[0] == b[0] {
      LexLeTotal(a[1..], b[1..]);
    }
  }

  lemma {:induction false} LexLeTrans(a: string, b: string, c: string)
    requires LexLe(a, b) && LexLe(b, c)
    ensures LexLe(a, c)
    decreases |a|
  {
    if |a| > 0 && a[0] == b[0] && b[0] == c[0] {
      LexLeTrans(a[1..], b[1..], c[1..]);
    }
  }
}

=== FILE: utilities.dfy ===
/** utils.py: the in-memory TTL cache, the z-score spike detector and the
    composite risk score of the dashboard. */
module Utilities {
  import opened Common
  import Text
  import opened RealSums

  // ---------------------------------------------------------------------
  // SimpleCache
  // ---------------------------------------------------------------------

  /** Entries of the cache: key -> (time of the `set`, value). */
  type CacheEntries<V> = map<string, (real, V)>

  /** An entry set at time t is still served at time now: fewer than ttl
      seconds have elapsed. */
  predicate Live(t: real, ttl: int, now: real)
  {
    now - t < ttl as real
  }

  /** What `get(key)` at time now returns. */
  function CacheLookup<V>(entries: CacheEntries<V>, ttl: int, key: string, now: real): Option<V>
  {
    if key in entries && Live(entries[key].0, ttl, now) then Some(entries[key].1) else None
  }

  /** The entries after `get(key)` at time now: an expired entry of that key is deleted. */
  function CacheAfterGet<V>(entries: CacheEntries<V>, ttl: int, key: string, now: real): CacheEntries<V>
  {
    if key in entries && !Live(entries[key].0, ttl, now) then entries - {key} else entries
  }

  /** A `get` serves a value exactly for a present key set fewer than ttl
      seconds ago, and then serves the value that was set. */
  lemma CacheLookupIff<V>(entries: CacheEntries<V>, ttl: int, key: string, now: real)
    ensures CacheLookup(entries, ttl, key, now).Some?
            <==> key in entries && now - entries[key].0 < ttl as real
    ensures CacheLookup(entries, ttl, key, now).Some?
            ==> CacheLookup(entries, ttl, key, now).value == entries[key].1
  {
  }

  /** A value set at time t is served by a `get` fewer than ttl seconds later. */
  lemma SetThenGet<V>(entries: CacheEntries<V>, ttl: int, key: string, v: V, t: real, now: real)
    requires now - t < ttl as real
    ensures CacheLookup(entries[key := (t, v)], ttl, key, now) == Some(v)
  {
  }

  /** A `set` changes what `get` returns for its own key only. */
  lemma SetOnlyThatKey<V>(entries: CacheEntries<V>, ttl: int, key: string, v: V, t: real, other: string, now: real)
    requires other != key
    ensures CacheLookup(entries[key := (t, v)], ttl, other, now) == CacheLookup(entries, ttl, other, now)
  {
  }

  /** After a `get`, its key is still stored exactly when the `get` served it,
      and every other key keeps its entry. */
  lemma GetEvictsOnlyExpired<V>(entries: CacheEntries<V>, ttl: int, key: string, now: real)
    ensures key in CacheAfterGet(entries, ttl, key, now)
            <==> CacheLookup(entries, ttl, key, now).Some?
    ensures forall k :: k != key ==>
              (k in CacheAfterGet(entries, ttl, key, now) <==> k in entries)
    ensures forall k :: k != key && k in entries ==>
              CacheAfterGet(entries, ttl, key, now)[k] == entries[k]
  {
  }

  /** Expiry is final: once a `get` misses, no later `get` of that key hits
      until the key is set again; a hit is repeated by a `get` at the same time. */
  lemma ExpiryIsFinal<V>(entries: CacheEntries<V>, ttl: int, key: string, now: real, later: real)
    requires now <= later
    ensures CacheLookup(entries, ttl, key, now).None? ==>
              CacheLookup(CacheAfterGet(entries, ttl, key, now), ttl, key, later).None?
    ensures CacheLookup(CacheAfterGet(entries, ttl, key, now), ttl, key, now)
            == CacheLookup(entries, ttl, key, now)
  {
  }

  /** `SimpleCache`; the clock reading of each call is passed in as `now`. */
  class SimpleCache<V> {
    var entries: CacheEntries<V>
    const ttl: int

    constructor (ttlSeconds: int)
      ensures entries == map[] && ttl == ttlSeconds
    {
      entries := map[];
      ttl := ttlSeconds;
    }

    /** `get`: the live value of the key, deleting it when it has expired. */
    method Get(key: string, now: real) returns (r: Option<V>)
      modifies this
      ensures r == CacheLookup(old(entries), ttl, key, now)
      ensures entries == CacheAfterGet(old(entries), ttl, key, now)
    {
      r := None;
      if key in entries {
        var (timestamp, value) := entries[key];
        if now - timestamp < ttl as real {
          r := Some(value);
        } else {
          entries := entries - {key};
        }
      }
    }

    /** `set`: stores the value with the current time, for that key only. */
    method Set(key: string, value: V, now: real)
      modifies this
      ensures entries == old(entries)[key := (now, value)]
    {
      entries := entries[key := (now, value)];
    }

    /** `clear` */
    method Clear()
      modifies this
      ensures entries == map[]
    {
      entries := map[];
    }
  }

  /** The cache scenario of the test suite: a fresh cache with the default
      300-second lifetime serves a value read back at once and misses an
      unknown key. */
  method CacheScenario(now: real) returns (hit: Option<string>, miss: Option<string>)
    ensures hit == Some("test_value")
    ensures miss == None
  {
    var cache := new SimpleCache<string>(300);
    cache.Set("test_key", "test_value", now);
    hit := cache.Get("test_key", now);
    miss := cache.Get("non_existent", now);
  }

  // ---------------------------------------------------------------------
  // AnomalyDetector.detect_spikes
  // ---------------------------------------------------------------------

  /** A column of a data frame. */
  datatype Column = Numbers(xs: seq<real>) | Texts(ts: seq<string>) {
    function Length(): nat
    {
      match this
      case Numbers(xs) => |xs|
      case Texts(ts) => |ts|
    }
  }

  /** A data frame: a row count and named columns of that length. */
  datatype Frame = Frame(height: nat, columns: map<string, Column>) {
    predicate WellFormed()
    {
      forall c :: c in columns ==> columns[c].Length() == height
    }

    /** `df.empty`: no rows or no columns. */
    predicate Empty()
    {
      height == 0 || |columns| == 0
    }
  }

  /** One `anomaly_score` cell, held as the square of the z value (the
      model has no square root); NaN when the deviation is undefined. */
  datatype ZScore = NaN | Squared(z2: real)

  /** What `detect_spikes` returns: the input frame itself, or a copy with
      an `is_anomaly` column and possibly an `anomaly_score` column. */
  datatype Spikes =
    | Unchanged(frame: Frame)
    | Marked(frame: Frame, isAnomaly: seq<bool>, anomalyScore: Option<seq<ZScore>>)

  /** `z > threshold` for z = |dev| / std, stated on the squares dev^2 and
      var = std^2: a negative threshold is exceeded by every z. */
  predicate Exceeds(dev2: real, variance: real, threshold: real)
  {
    threshold < 0.0 || dev2 > Square(threshold) * variance
  }

  /** `detect_spikes(df, column, threshold)`. Pandas' `std` is the sample
      deviation, NaN for a single row; a text column makes `mean` raise. */
  function DetectSpikes(df: Frame, column: string, threshold: real): (r: Result<Spikes, string>)
    requires df.WellFormed()
    ensures r.Ok? ==> r.value.frame == df
    ensures r.Ok? && r.value.Unchanged? <==> df.Empty() || column !in df.columns
    ensures r.Err? <==> !df.Empty() && column in df.columns && df.columns[column].Texts?
    ensures r.Ok? && r.value.Marked? ==> |r.value.isAnomaly| == df.height
    ensures r.Ok? && r.value.Marked? && r.value.anomalyScore.Some? ==>
              |r.value.anomalyScore.value| == df.height
    ensures r.Ok? && r.value.Marked? && df.height == 1 ==>
              r.value.isAnomaly == [false] && r.value.anomalyScore == Some([NaN])
  {
    if df.Empty() || column !in df.columns then Ok(Unchanged(df))
    else match df.columns[column]
      case Texts(_) => Err("TypeError")
      case Numbers(xs) =>
        if |xs| == 1 then
          // the deviation of one value is NaN: `std == 0` fails and every
          // comparison with the NaN z value is false
          Ok(Marked(df, [false], Some([NaN])))
        else
          var m := Mean(xs);
          var v := SampleVariance(xs);
          if v == 0.0 then Ok(Marked(df, seq(|xs|, i => false), None))
          else
            Ok(Marked(df,
              seq(|xs|, i requires 0 <= i < |xs| => Exceeds(Square(xs[i] - m), v, threshold)),
              Some(seq(|xs|, i requires 0 <= i < |xs| => Squared(Square(xs[i] - m) / v)))))
  }

  /** A row is flagged exactly when its squared deviation from the mean
      exceeds threshold^2 times the variance (any row, for a negative
      threshold), and its score is the squared z value; a zero deviation
      flags nothing and adds no score column. */
  lemma SpikeFlags(df: Frame, column: string, threshold: real)
    requires df.WellFormed() && !df.Empty() && column in df.columns
    requires df.columns[column].Numbers? && df.height >= 2
    ensures var xs := df.columns[column].xs;
            var r := DetectSpikes(df, column, threshold);
            && r.Ok? && r.value.Marked?
            && (SampleVariance(xs) == 0.0 ==>
                 r.value.anomalyScore == None && forall i :: 0 <= i < |xs| ==> !r.value.isAnomaly[i])
            && (SampleVariance(xs) != 0.0 ==>
                 && r.value.anomalyScore.Some?
                 && forall i :: 0 <= i < |xs| ==>
                      && (r.value.isAnomaly[i] <==>
                           threshold < 0.0 || Square(xs[i] - Mean(xs)) > Square(threshold) * SampleVariance(xs))
                      && r.value.anomalyScore.value[i] == Squared(Square(xs[i] - Mean(xs)) / SampleVariance(xs)))
  {
  }

  /** A single numeric row has an undefined deviation: it is not flagged
      and its score is NaN. */
  lemma SingleRowNoSpike(df: Frame, column: string, threshold: real)
    requires df.WellFormed() && column in df.columns
    requires df.columns[column].Numbers? && df.height == 1
    ensures var r := DetectSpikes(df, column, threshold);
            r.Ok? && r.value.Marked? && r.value.isAnomaly == [false] && r.value.anomalyScore == Some([NaN])
  {
  }

  /** A column whose values are all equal has no anomaly. */
  lemma EqualValuesNoAnomaly(df: Frame, column: string, threshold: real)
    requires df.WellFormed() && !df.Empty() && column in df.columns
    requires df.columns[column].Numbers?
    requires forall i :: 0 <= i < df.height ==> df.columns[column].xs[i] == df.columns[column].xs[0]
    ensures DetectSpikes(df, column, threshold).Ok?
    ensures forall i :: 0 <= i < df.height ==> !DetectSpikes(df, column, threshold).value.isAnomaly[i]
  {
    var xs := df.columns[column].xs;
    if |xs| >= 2 {
      ConstantVarianceZero(xs);
    }
  }

  lemma ProductPositive(a: real, b: real)
    requires 0.0 < a && 0.0 < b
    ensures 0.0 < a * b
  {
  }

  lemma ProductNonNegative(a: real, b: real)
    requires 0.0 <= a && 0.0 <= b
    ensures 0.0 <= a * b
  {
  }

  /** The squared test agrees with the source's `|dev| / std > threshold`
      for every positive standard deviation. */
  lemma ExceedsMeansAbove(dev: real, sd: real, threshold: real)
    requires sd > 0.0
    ensures Exceeds(Square(dev), Square(sd), threshold)
            <==> (if dev < 0.0 then -dev else dev) / sd > threshold
  {
    var a := if dev < 0.0 then -dev else dev;
    assert Square(dev) == Square(a);
    if threshold >= 0.0 {
      var b := threshold * sd;
      assert Square(threshold) * Square(sd) == Square(b);
      assert a / sd - threshold == (a - b) / sd;
      assert Square(a) - Square(b) == (a - b) * (a + b);
      if a > b {
        ProductPositive(a - b, a + b);
        ProductPositive(a - b, 1.0 / sd);
        assert (a - b) / sd == (a - b) * (1.0 / sd);
      } else {
        ProductNonNegative(b - a, a + b);
        ProductNonNegative(b - a, 1.0 / sd);
        assert (b - a) / sd == (b - a) * (1.0 / sd);
      }
    }
  }

  lemma SumOfSeven(s: seq<real>)
    requires |s| == 7
    ensures Sum(s) == s[0] + s[1] + s[2] + s[3] + s[4] + s[5] + s[6]
  {
    assert Sum(s[..1]) == s[0] by { assert s[..1][..0] == []; }
    assert Sum(s[..2]) == Sum(s[..1]) + s[1] by { assert s[..2][..1] == s[..1]; }
    assert Sum(s[..3]) == Sum(s[..2]) + s[2] by { assert s[..3][..2] == s[..2]; }
    assert Sum(s[..4]) == Sum(s[..3]) + s[3] by { assert s[..4][..3] == s[..3]; }
    assert Sum(s[..5]) == Sum(s[..4]) + s[4] by { assert s[..5][..4] == s[..4]; }
    assert Sum(s[..6]) == Sum(s[..5]) + s[5] by { assert s[..6][..5] == s[..5]; }
    assert s[..7] == s;
  }

  /** The score column of the test suite's anomaly scenario. */
  const TEST_SCORES: seq<real> := [0.1, 0.2, 0.15, -0.95, 0.1, 0.2, 0.15]

  /** In that scenario, with the default threshold 2.0, the fourth score
      (-0.95) is the only spike: mean -1/140, variance 733/4200. */
  lemma TestSeriesSpike(df: Frame)
    requires df.WellFormed() && df.height == 7
    requires "skor" in df.columns && df.columns["skor"] == Numbers(TEST_SCORES)
    ensures DetectSpikes(df, "skor", 2.0).Ok?
    ensures DetectSpikes(df, "skor", 2.0).value.Marked?
    ensures DetectSpikes(df, "skor", 2.0).value.isAnomaly == [false, false, false, true, false, false, false]
  {
    var xs := TEST_SCORES;
    SumOfSeven(xs);
    var m := Mean(xs);
    assert m == -1.0 / 140.0;
    var d := SquaredDevs(xs, m);
    assert d == [9.0 / 784.0, 841.0 / 19600.0, 121.0 / 4900.0, 1089.0 / 1225.0,
                 9.0 / 784.0, 841.0 / 19600.0, 121.0 / 4900.0];
    SumOfSeven(d);
    var v := SampleVariance(xs);
    assert v == 733.0 / 4200.0;
    assert Square(2.0) * v == 733.0 / 1050.0;
  }

  // ---------------------------------------------------------------------
  // RiskScoringEngine.calculate_risk_score
  // ---------------------------------------------------------------------

  const SENTIMENT_WEIGHT := 0.4
  const FREQUENCY_WEIGHT := 0.3
  const VOLATILITY_WEIGHT := 0.2
  const KEYWORD_WEIGHT := 0.1

  const CRITICAL_KEYWORDS: seq<string> := [
    "breach", "hack", "exploit", "vulnerability", "crash", "fail",
    "risk", "threat", "danger", "critical", "emergency", "urgent",
    "crisis", "disaster", "attack", "malware", "ransomware"]

  /** The columns of a stored record that the risk score reads; a missing
      title is `None`. */
  datatype NewsRow = NewsRow(skor: real, ulke: string, baslik: Option<string>)

  /** The five `risk_category` buckets, lowest first. */
  datatype RiskCategory = CokDusuk | Dusuk | Orta | Yuksek | Kritik {
    function Label(): string
    {
      match this
      case CokDusuk => "Çok Düşük"
      case Dusuk => "Düşük"
      case Orta => "Orta"
      case Yuksek => "Yüksek"
      case Kritik => "Kritik"
    }

    function Rank(): nat
    {
      match this
      case CokDusuk => 0
      case Dusuk => 1
      case Orta => 2
      case Yuksek => 3
      case Kritik => 4
    }
  }

  /** One output row; `None` stands for a NaN cell. */
  datatype ScoredRow = ScoredRow(
    row: NewsRow,
    frequencyScore: real,
    volatilityScore: Option<real>,
    criticalKeywordScore: real,
    riskScore: Option<real>,
    riskCategory: Option<RiskCategory>)

  /** The sentiment component: the score mapped from [-1, 1] onto [0, 100]
      and weighted by 0.4, so it lies in [0, 40] and grows with the score. */
  function SentimentComponent(s: real): (c: real)
    ensures -1.0 <= s <= 1.0 ==> 0.0 <= c <= 40.0
    ensures s == -1.0 ==> c == 0.0
    ensures s == 1.0 ==> c == 40.0
  {
    ((s + 1.0) / 2.0 * 100.0) * SENTIMENT_WEIGHT
  }

  /** A higher sentiment score never lowers the sentiment component. */
  lemma SentimentMonotone(s: real, t: real)
    requires s <= t
    ensures SentimentComponent(s) <= SentimentComponent(t)
  {
  }

  /** The number of rows from country u. */
  function CountryCount(rows: seq<NewsRow>, u: string): (n: nat)
    ensures n <= |rows|
  {
    if rows == [] then 0
    else CountryCount(rows[..|rows| - 1], u) + (if rows[|rows| - 1].ulke == u then 1 else 0)
  }

  lemma {:induction false} CountryCountPositive(rows: seq<NewsRow>, i: nat)
    requires i < |rows|
    ensures CountryCount(rows, rows[i].ulke) >= 1
  {
    var n := |rows| - 1;
    if i < n {
      CountryCountPositive(rows[..n], i);
    }
  }

  /** The frequency component of a row of country u: u's share of the rows,
      in percent, weighted by 0.3. */
  function FrequencyScore(rows: seq<NewsRow>, u: string): real
    requires |rows| > 0
  {
    (CountryCount(rows, u) as real) / (|rows| as real) * 100.0 * FREQUENCY_WEIGHT
  }

  /** Every row's frequency component lies in (0, 30]: its own country has at
      least one and at most all of the rows. */
  lemma FrequencyBounds(rows: seq<NewsRow>, i: nat)
    requires i < |rows|
    ensures 0.0 < FrequencyScore(rows, rows[i].ulke) <= 30.0
  {
    CountryCountPositive(rows, i);
    var c := CountryCount(rows, rows[i].ulke) as real;
    var n := |rows| as real;
    assert 1.0 <= c <= n;
    DivLower(c, n, 0.0);
    DivUpper(c, n, 1.0);
    assert 0.0 < c / n by {
      assert c / n == c * (1.0 / n);
    }
  }

  /** The scores of country u, in row order. */
  function GroupScores(rows: seq<NewsRow>, u: string): (g: seq<real>)
    ensures |g| == CountryCount(rows, u)
  {
    if rows == [] then []
    else
      var last := rows[|rows| - 1];
      GroupScores(rows[..|rows| - 1], u) + (if last.ulke == u then [last.skor] else [])
  }

  /** The volatility component: the sample deviation of the country's scores
      (through the given square root) times 100, weighted by 0.2; NaN for a
      country with a single row. */
  function VolatilityScore(rows: seq<NewsRow>, u: string, sqrt: real -> real): Option<real>
  {
    var g := GroupScores(rows, u);
    if |g| < 2 then None else Some(sqrt(SampleVariance(g)) * 100.0 * VOLATILITY_WEIGHT)
  }

  /** The lowercased title contains one of the listed keywords; a missing
      title never matches. */
  predicate HasCriticalKeyword(title: Option<string>)
  {
    title.Some? && exists k :: k in CRITICAL_KEYWORDS && Text.Contains(Text.Lower(title.value), k)
  }

  /** The keyword component: 10 for a matching title, else 0. */
  function KeywordScore(title: Option<string>): (r: real)
    ensures r == 10.0 <==> HasCriticalKeyword(title)
    ensures r == 0.0 <==> !HasCriticalKeyword(title)
  {
    (if HasCriticalKeyword(title) then 1.0 else 0.0) * 100.0 * KEYWORD_WEIGHT
  }

  /** `Series.clip(lo, hi)` on one value. */
  function Clip(x: real, lo: real, hi: real): (r: real)
    requires lo <= hi
    ensures lo <= r <= hi
    ensures lo <= x <= hi ==> r == x
    ensures x < lo ==> r == lo
    ensures hi < x ==> r == hi
  {
    if x < lo then lo else if hi < x then hi else x
  }

  /** `pd.cut` with bins 0, 20, 40, 60, 80, 100: right-closed intervals, so
      0 itself, like anything outside (0, 100], gets no category. */
  function Category(score: real): (c: Option<RiskCategory>)
    ensures c.None? <==> score <= 0.0 || 100.0 < score
    ensures c == Some(CokDusuk) <==> 0.0 < score <= 20.0
    ensures c == Some(Dusuk) <==> 20.0 < score <= 40.0
    ensures c == Some(Orta) <==> 40.0 < score <= 60.0
    ensures c == Some(Yuksek) <==> 60.0 < score <= 80.0
    ensures c == Some(Kritik) <==> 80.0 < score <= 100.0
  {
    if score <= 0.0 || 100.0 < score then None
    else if score <= 20.0 then Some(CokDusuk)
    else if score <= 40.0 then Some(Dusuk)
    else if score <= 60.0 then Some(Orta)
    else if score <= 80.0 then Some(Yuksek)
    else Some(Kritik)
  }

  /** A higher score never falls into a lower bucket. */
  lemma CategoryMonotone(a: real, b: real)
    requires 0.0 < a <= b <= 100.0
    ensures Category(a).Some? && Category(b).Some?
    ensures Category(a).value.Rank() <= Category(b).value.Rank()
  {
  }

  /** The output row of input row i. */
  function ScoreRow(rows: seq<NewsRow>, i: nat, sqrt: real -> real): ScoredRow
    requires i < |rows|
  {
    var row := rows[i];
    var freq := FrequencyScore(rows, row.ulke);
    var vol := VolatilityScore(rows, row.ulke, sqrt);
    var kw := KeywordScore(row.baslik);
    var risk :=
      if vol.None? then None
      else Some(Clip(SentimentComponent(row.skor) + freq + vol.value + kw, 0.0, 100.0));
    ScoredRow(row, freq, vol, kw, risk, if risk.None? then None else Category(risk.value))
  }

  /** Every row's frequency component lies in (0, 30]. */
  lemma AllFrequencyBounds(rows: seq<NewsRow>)
    ensures forall i :: 0 <= i < |rows| ==> 0.0 < FrequencyScore(rows, rows[i].ulke) <= 30.0
  {
    forall i | 0 <= i < |rows|
      ensures 0.0 < FrequencyScore(rows, rows[i].ulke) <= 30.0
    {
      FrequencyBounds(rows, i);
    }
  }

  /** `calculate_risk_score`: one output row per input row, in order. Each
      row carries the frequency component of its country, which lies in
      (0, 30], the volatility of its country and its keyword component. The
      risk score is the sum of the four components clipped to [0, 100], NaN
      exactly when the volatility is; its category is the right-closed bucket
      of the score, missing exactly for NaN or 0. */
  function CalculateRiskScore(rows: seq<NewsRow>, sqrt: real -> real): (r: seq<ScoredRow>)
    ensures |r| == |rows|
    ensures forall i :: 0 <= i < |r| ==> r[i].row == rows[i]
    ensures forall i :: 0 <= i < |r| ==>
              && r[i].frequencyScore == FrequencyScore(rows, rows[i].ulke)
              && 0.0 < r[i].frequencyScore <= 30.0
              && r[i].volatilityScore == VolatilityScore(rows, rows[i].ulke, sqrt)
              && r[i].criticalKeywordScore == KeywordScore(rows[i].baslik)
              && r[i].riskCategory == (if r[i].riskScore.None? then None else Category(r[i].riskScore.value))
    ensures forall i :: 0 <= i < |r| ==>
              && (r[i].riskScore.None? <==> r[i].volatilityScore.None?)
              && (r[i].riskScore.Some? ==> 0.0 <= r[i].riskScore.value <= 100.0)
              && (r[i].riskCategory.None? <==> r[i].riskScore.None? || r[i].riskScore.value == 0.0)
              && (r[i].criticalKeywordScore == 10.0 <==> HasCriticalKeyword(rows[i].baslik))
    ensures forall i :: 0 <= i < |r| && r[i].riskScore.Some? ==>
              var total := SentimentComponent(rows[i].skor) + r[i].frequencyScore
                           + r[i].volatilityScore.value + r[i].criticalKeywordScore;
              && (0.0 <= total <= 100.0 ==> r[i].riskScore.value == total)
              && (100.0 < total ==> r[i].riskScore.value == 100.0)
              && (total < 0.0 ==> r[i].riskScore.value == 0.0)
  {
    AllFrequencyBounds(rows);
    seq(|rows|, i requires 0 <= i < |rows| => ScoreRow(rows, i, sqrt))
  }

  /** A country with a single row has a NaN volatility, so that row gets
      neither a risk score nor a category. */
  lemma LoneCountryHasNoScore(rows: seq<NewsRow>, i: nat, sqrt: real -> real)
    requires i < |rows| && CountryCount(rows, rows[i].ulke) == 1
    ensures ScoreRow(rows, i, sqrt).riskScore.None?
    ensures ScoreRow(rows, i, sqrt).riskCategory.None?
  {
    var u := rows[i].ulke;
    assert |GroupScores(rows, u)| == 1;
  }
}
